=== FILE: README.md ===
# Dormitory occupancy ledger and billing engine — a Dafny model

This project models the core of a dormitory-management back end: the
Express route handlers that house students in rooms, transfer them and
check them out, clear rooms, and bill accommodation month by month at a
fixed rate of 500 hryvnias.

Each handler is modelled as one atomic step. It is a pure function from
the store and a request to either a new store and a response, or an
error. An error carries no store, so a refused request commits nothing;
this stands for the handlers' `BEGIN … ROLLBACK`.

The store (`Types.Dorm`) holds four things:

- **rooms**: a map from id to room. Each room carries its capacity
  `total_beds` and a cached counter `occupied_beds`.
- **students**: a map from id to student.
- **accommodation ledger**: an append-only sequence of entries. An entry's
  id is its position. Its life cycle is `active → moved_out | transferred`.
- **charges**: a sequence of charges. Each charge covers the months
  `[month_from, month_to]` of a year.

Money is kept in integer hundredths of a hryvnia:

- `MONTHLY_RATE` is 50000;
- the ±1 hryvnia tolerance on a submitted amount is 100;
- the `0.01` epsilon of a partial payment becomes "nothing remains".

Dates are opaque. Where a handler defaults a date to "now", the instant is
an explicit `now` argument.

Modules:

- `Types`: the records and the error taxonomy.
- `Ledger`: active counts over the accommodation ledger.
- `Billing`: month ranges, the overlap test, splitting a charge, debt.
- `State`: the store invariant `Valid`. It requires that:
  - every room keeps `0 ≤ occupied ≤ total`;
  - every counter equals the room's number of active entries;
  - active entries point at existing rooms;
  - each student has at most one active entry;
  - room numbers and non-empty passports are unique;
  - charges have well-formed month ranges, unique ids, and no two charges
    of one student and year share a month;
  - the identifier sequences are fresh.
- `Accommodation`, `Payments`, `Rooms`, `Students`: the handlers of the
  four route files.
- `Dormitory`: every handler as one `Step`, and the invariant along any
  run of requests.
- `Findings`: two handler behaviours as written, next to the corrected
  ones.

## Model

| member | source | states |
|---|---|---|
| Billing.CheckMonths | routes/payments.js:98-104 | A range is accepted exactly when 1 ≤ from ≤ to ≤ 12. A reversed range is reported as such before a month outside 1..12. |
| Billing.SqlOverlapIsIntersection | routes/payments.js:121-130 | For well-formed ranges, the three-clause SQL period test holds exactly when the two ranges intersect (`a ≤ d ∧ c ≤ b`). |
| Billing.SqlOverlapDiffersOnReversedRange | routes/payments.js:125-129 | Without well-formedness the equivalence fails: a reversed stored range [3,2] passes the SQL test against [3,3] but intersects nothing. |
| Billing.FirstConflict | routes/payments.js:121-132 | Finds a charge of the same student and year hit by the overlap query, and finds none exactly when no charge conflicts. |
| Billing.Admit | routes/payments.js:132-145 | A new charge is appended exactly when no charge of the same student and year overlaps it. Otherwise the error names the period of a charge that conflicts with it. |
| Billing.AdmitRejectsExactlyIntersections | routes/payments.js:121-139 | Admission is refused exactly when an existing charge of the same account intersects the new range. The paid or unpaid status plays no part. |
| Billing.AdmitPreservesValid | routes/payments.js:121-145 | Admitting a well-formed charge with a fresh id keeps the charge ledger free of overlapping periods per student and year. |
| Billing.SplitPartitions | routes/payments.js:199-224 | The two halves that `Billing.Split` makes of a charge keep the account and sum to the original amount. The paid prefix has `floor(paid/500)` months and is paid and dated; the remainder is unpaid and undated. The halves never share a month, and they cover exactly the original months unless the payment covers more months than the charge has. When at least one month is paid and one remains, both halves are well formed and disjoint. |
| Billing.RemainderNonEmpty | routes/payments.js:199-210 | When a charge is worth no more than its months at the rate (true at creation) and the payment is strictly partial, at least one month remains unpaid. |
| Billing.Debt | routes/students.js:54-64 | A student's debt is the sum of their unpaid charges. It is 0 when they owe nothing and non-negative when all amounts are. |
| Billing.DebtUpdate | routes/students.js:59-64 | Rewriting one charge changes a debt by exactly the difference of that charge's contributions. |
| Ledger.CountActive | routes/accommodation.js:110-128 | The number of active entries in a room: at most the ledger length, and zero exactly when no entry is active there. |
| Ledger.CountActiveUpdate | routes/accommodation.js:257-263 | Rewriting one entry changes a room's active count by exactly the difference of that entry's contributions. |
| Ledger.FirstActiveFor | routes/accommodation.js:73-78 | Returns an entry that is active for the student in one of the given rooms, and returns none exactly when no such entry exists. |
| Ledger.CloseRoomEffect | routes/rooms.js:82 | The bulk move-out changes exactly the active entries of the room, to moved out on the date. It leaves the room with no active entry and every other room's count unchanged. |
| Ledger.HeadcountUpdate | routes/accommodation.js:257-272 | Rewriting one entry changes the number of active entries in the building by exactly that entry's change. |
| State.AdjustOccupancy | routes/accommodation.js:263-266 | The blind `occupied_beds ± 1` update changes one room's counter by the delta and leaves every other room and every key as it was. |
| Accommodation.HousedRoomNumber | routes/accommodation.js:73-83 | Reports a room number exactly when the student has an active entry in an existing room (the join with rooms). The number reported is that room's number. |
| Accommodation.MoveIn | routes/accommodation.js:66-193 | A student already housed is refused, naming their room. A missing room is not found, and a room with no free bed is full. A requested charge with a reversed or out-of-range month rolls the move-in back with that range error. One that overlaps a stored charge of the account is refused with that charge's period. A request that passes every guard succeeds. On success the room gains exactly one occupant and stays within capacity, and exactly one active entry is appended. The reported room status names the room's number and capacity, and its available beds equal total minus occupied. The charge ledger is untouched unless both `create_payment` and `payment` were sent; if so, exactly one charge is added (`Accommodation.MoveInCharge`), priced at months × 500, paid exactly when `mark_as_paid` and then dated with the move-in date (or now), and overlapping no charge of the account. The response's `payment_created` is the corrected flag (see Findings). |
| Accommodation.MoveInPreservesValid | routes/accommodation.js:73-180 | Move-in keeps the whole store invariant: bounds, counters matching the ledger, one active entry per student, and disjoint charges. |
| Accommodation.Transfer | routes/accommodation.js:209-272 | An id without an active entry is not found. A transfer to the current room is refused. A missing destination is not found, and a full one is refused with its occupancy and capacity. On success the old entry is closed as transferred on the date, and one new active entry opens for the same student in the destination. The source loses one occupant and the destination gains one. Nothing else changes: room numbers, floors, capacities, charges, students and the id sequences stay the same. A transfer that passes every guard succeeds. |
| Accommodation.TransferKeepsLedger | routes/accommodation.js:254-272 | Closing the source entry, opening the destination entry and moving one count keeps bounds, counters and one-active-per-student. The blind decrement cannot go below zero. |
| Accommodation.TransferPreservesValid | routes/accommodation.js:209-284 | Transfer keeps the whole store invariant. |
| Accommodation.Checkout | routes/accommodation.js:286-318 | A missing entry is not found. An entry that is no longer active is refused. Otherwise the entry becomes moved out on the date and its room's counter drops by one. Nothing else changes: no other room, no other field of the room, charges, students or id sequences. |
| Accommodation.CheckoutKeepsLedger | routes/accommodation.js:308-318 | Closing an active entry and taking one count off its room keeps bounds, counters and one-active-per-student. The blind decrement cannot go below zero. |
| Accommodation.CheckoutPreservesValid | routes/accommodation.js:308-318 | Checkout keeps the whole store invariant. The blind decrement cannot go below zero. |
| Accommodation.MoveInThenCheckout | routes/accommodation.js:110-128 | A move-in followed by checkout of the new entry always succeeds and restores every room exactly. |
| Accommodation.MoveInTransferCheckout | routes/accommodation.js:254-318 | A move-in, a transfer and a checkout at the destination restore every room's counter. |
| Accommodation.HeadcountEffects | routes/accommodation.js:254-272 | Move-in adds one active entry to the building, transfer leaves the number of active entries unchanged, and checkout removes one. |
| Payments.CreateCharge | routes/payments.js:88-145 | A missing or zero student, start month, year or amount is refused. The end month defaults to the start month (`Payments.EffectiveMonthTo`). A bad range is refused with the range error, a reversed range before an out-of-range month. A submitted amount more than one hryvnia off months × 500 is refused with the expected amount. On success the stored charge has the computed amount, not the submitted one, and the requested or default status. An unknown student is refused. A request passing the earlier guards that the overlap query hits is refused as an overlap, naming the period of a stored charge the query returns. On success the charge belongs to an existing student, overlaps no charge of the account, and is the only change to the store; the room and student id sequences stay as they were. A complete, well-formed, correctly priced request of a known student that overlaps nothing is recorded. |
| Payments.CreateChargePreservesValid | routes/payments.js:121-145 | Creation keeps the whole store invariant. |
| Payments.CreateChargeNeverDoubleBills | routes/payments.js:121-139 | After creation, no existing charge of the same student and year intersects the new one. |
| Payments.FindUnpaid | routes/payments.js:162-170 | Locates an unpaid charge with the id, and finds none exactly when no unpaid charge has it. |
| Payments.PartialPayment | routes/payments.js:155-234 | Only an existing unpaid charge qualifies. The payment must lie in (0, amount]. A strictly partial payment under 500 is refused, and so is one whose months cover the whole range (the corrected guard, see Findings). Paying the whole amount only marks that one record paid on the date. Otherwise the record becomes the paid prefix of `floor(paid/500)` months (`Billing.MonthsPaid`), and a new unpaid record takes the rest of the months and of the amount. The response reports the months paid and remaining and the remaining debt. Paying the whole amount, or a split leaving at least one month unpaid, always succeeds. |
| Payments.PartialPaymentReducesDebt | routes/payments.js:183-224 | A payment lowers the payer's debt by exactly the amount paid and leaves every other student's debt unchanged. |
| Payments.PartialPaymentKeepsBilledMonths | routes/payments.js:198-224 | A payment never changes which months are billed to which student and year. |
| Payments.PartialPaymentPreservesValid | routes/payments.js:155-224 | Partial payment keeps the whole store invariant, including disjoint periods. |
| Payments.UpdateCharge | routes/payments.js:243-255 | An absent id is not found. Otherwise only the date and status of that charge (located by `Payments.FindCharge`) are overwritten, whatever its current status. |
| Payments.UpdateChargePreservesValid | routes/payments.js:243-262 | The status/date update keeps the whole store invariant. |
| Payments.DeleteCharge | routes/payments.js:264-271 | An absent id is not found. Otherwise exactly that one charge (located by `Payments.FindCharge`) is removed, unconditionally, and no charge with the id remains. |
| Payments.DeleteChargePreservesValid | routes/payments.js:264-278 | Deletion keeps the whole store invariant. |
| Rooms.ParseStatusFilter | routes/rooms.js:23-27 | The `available` filter is chosen exactly for the status `available`, the `full` filter exactly for `full`; any other status filters nothing. |
| Rooms.ListRooms | routes/rooms.js:23-27 | The `available` view is exactly the rooms with occupied < total, the `full` view exactly those with occupied ≥ total, and no filter gives every room. |
| Rooms.AvailableAndFullPartition | routes/rooms.js:57-61 | The available and full views split the rooms with no overlap. Under the bounds invariant, a full room is exactly one whose every bed is taken. |
| Rooms.ClearRoom | routes/rooms.js:69-90 | A missing room is not found. Otherwise every active entry of the room becomes moved out now, other entries are untouched, and the counter becomes zero, which agrees with the room's active count. Other rooms' counts are unchanged. |
| Rooms.ClearRoomPreservesValid | routes/rooms.js:82-84 | Clearing a room keeps the whole store invariant. |
| Rooms.CreateRoom | routes/rooms.js:100-116 | A number held by any room is refused; then a negative capacity is refused. On success the new room has a fresh id and starts empty. A new number with a non-negative capacity succeeds whenever the id sequence is ahead of every room (always, under the invariant); a primary-key collision happens only otherwise. |
| Rooms.CreateRoomPreservesValid | routes/rooms.js:104-116 | Creation keeps room numbers unique and the whole store invariant. |
| Rooms.UpdateRoom | routes/rooms.js:124-152 | A missing room is not found. A capacity below the current occupancy is refused, naming the occupancy. A number held by a different room is refused. Otherwise only number, floor and capacity change, and the counter is untouched. An update passing all three guards succeeds. |
| Rooms.UpdateRoomPreservesValid | routes/rooms.js:129-152 | Update keeps `occupied ≤ total`, unique numbers and the whole store invariant. |
| Rooms.DeleteRoom | routes/rooms.js:161-176 | A missing room is not found. A room with an occupant is refused. Otherwise exactly that room is removed. |
| Rooms.DeleteRoomPreservesValid | routes/rooms.js:165-176 | Under the invariant a deletable room has no active entry, so no active entry is left pointing at a deleted room. |
| Rooms.CeilDiv | routes/rooms.js:48 | `Math.ceil(total / limit)` as the least number of pages of `limit` rows that holds `total` rows. |
| Rooms.Paginate | routes/rooms.js:7-48 | The page and limit default to 1 and 50 when missing or zero. The offset is `(page − 1) × limit`. The page count is the ceiling of total / limit, zero for an empty listing. A negative limit or offset is refused. |
| Rooms.EveryRowOnAPage | routes/rooms.js:9-48 | Every row of the listing falls on a page between 1 and the page count, and that page's window holds it. |
| Students.CreateStudent | routes/students.js:198-219 | A missing surname, name, course or faculty is refused. A non-empty passport already held by any student is refused. Otherwise exactly one new student is added under a fresh id. A complete form with a new passport succeeds whenever the id sequence is ahead of every student (always, under the invariant); a primary-key collision happens only otherwise. |
| Students.CreateStudentPreservesValid | routes/students.js:206-219 | Creation keeps passports unique and the whole store invariant. |
| Students.UpdateStudent | routes/students.js:228-249 | A non-empty passport held by a different student is refused, before the id is looked up. A missing id is not found. Otherwise the whole record is overwritten; an existing student whose new passport no other student holds is always updated. |
| Students.UpdateStudentPreservesValid | routes/students.js:233-249 | Update keeps passports unique and the whole store invariant. |
| Students.DeleteStudent | routes/students.js:257-276 | A student with an active entry cannot be deleted. A missing id is not found. Otherwise exactly that student is removed; a registered student with no active entry is always deleted. |
| Students.DeleteStudentPreservesValid | routes/students.js:261-276 | Deletion keeps the whole store invariant. |
| Students.AvailableStudents | routes/students.js:89-97 | The available students are exactly the registered students whom the delete handler would not refuse as housed, that is, those with no active entry. |
| Students.AvailableStudentsAreUnhoused | routes/students.js:89-97 | Under the invariant, a student is available exactly when the move-in guard does not find them housed. |
| Students.TotalDebt | routes/students.js:54-64 | One pass over the charges computes the student's debt, the sum of their unpaid amounts. |
| Students.Roommates | routes/students.js:140-159 | The roommates are the other registered students with an active entry in the room of the student's active entry. There are none for a student not housed. The query fails exactly when the student has two active entries. |
| Students.RoommatesSymmetric | routes/students.js:143-159 | Under the invariant, the roommate relation is symmetric. |
| Students.FirstActiveIsFirst | routes/students.js:153-156 | The located active entry is the first qualifying one, which makes the subquery's single row unique. |
| Students.ParseSortField | routes/students.js:10-20 | A missing sort field means `id`. A field outside the seven-column whitelist is refused. An accepted field sorts by the named column. |
| Students.SortFieldRoundTrip | routes/students.js:16-20 | Every whitelisted column is accepted under its own name. |
| Dormitory.Step | routes/accommodation.js:66-327 | A refused request leaves the store unchanged. Each kind of request writes only its own tables: room, student and charge requests change nothing but the rooms, students and charges respectively. Transfer, checkout and clearing never change charges or students, and a move-in only appends charges. |
| Dormitory.StepKeepsHistory | routes/accommodation.js:126-311 | No request removes a ledger entry or rewrites its student, room or move-in date, and a closed entry is never reopened or changed. |
| Dormitory.RunKeepsHistory | routes/accommodation.js:126-311 | Over any sequence of requests the ledger only grows, and every entry keeps its student, room and move-in date; a closed entry stays as it was. |
| Dormitory.StepPreservesValid | routes/accommodation.js:66-327 | Every handler keeps the store invariant, whether it succeeds or not. The partial payment here is the corrected one (see Findings); the handler as written does not keep it. |
| Dormitory.RunPreservesValid | routes/accommodation.js:66-327 | Any sequence of requests served from a valid store leaves it valid, with the corrected partial payment. |
| Dormitory.ReachableStoresAreValid | routes/accommodation.js:66-327 | Every store reachable from the empty store is valid, with the corrected partial payment. |
| Findings.PaymentFlagWithoutPayment | routes/accommodation.js:131-186 | With `create_payment` set and no `payment` object, the move-in succeeds and records no charge, yet the flag as written reports one. |
| Findings.PaymentFlagReportsCharge | routes/accommodation.js:131-186 | The corrected flag is true exactly when the move-in recorded a charge. |
| Findings.PartialPaymentAsWritten | routes/payments.js:198-224 | The handler as written agrees with the corrected handler on every request the corrected one accepts, and on every refusal. |
| Findings.AsWrittenAgreesOnPricedCharges | routes/payments.js:198-224 | On a charge worth no more than its months at the rate, the handler as written and the corrected one give the same result. |
| Findings.ReopenedStoreIsReachable | routes/payments.js:198-255 | A valid store reaches the over-priced unpaid charge through a partial payment and a status update. |
| Findings.ReversedRemainder | routes/payments.js:199-224 | On that charge, paying 1100 makes the handler as written write a remainder running from March back to February, which breaks the charge invariant. The corrected handler refuses. |

## Left out

- HTTP details are not modelled: status codes, localized messages, month
  labels and the `console` logging. Each error response is one constructor
  of `Types.Error`.
- Transactions and concurrency are not modelled: `BEGIN`, `COMMIT`,
  `ROLLBACK`, `FOR UPDATE` and interleavings. Each handler is one atomic
  step.
- Floating-point money is not modelled. `parseFloat` amounts become
  integer hundredths.
- The re-check at routes/accommodation.js:115-120 is not modelled. It
  cannot fail after the free-bed check at line 102 within one atomic step.
- `beds_check` is assumed to be `0 ≤ occupied_beds ≤ total_beds`, because
  the schema is not part of this model. The only handler the model lets
  it refuse is a room created with negative capacity.
- Other database constraints are not modelled: foreign keys and NOT NULL
  columns.
  - A move-in of an unregistered student is not refused.
  - Deleting a student or room with historical ledger entries is not
    refused.
  - A student update that blanks a required field is not refused.
- Type coercion between JSON strings and numbers is not modelled. This
  includes the strict `oldRoomId === new_room_id` at
  routes/accommodation.js:229, so identifiers are integers throughout.
- Charge statuses other than `paid` and `unpaid` are not modelled.
  `created_at` is not modelled either.
- The read-only parts of the listings are not modelled: search, the
  floor/course/faculty filters, the joins and ordering, `sortOrder`, and
  the student detail and coursemates views. Only the status filter,
  pagination, the sort whitelist, debt totals, available students and
  roommates are modelled.
- Dormitory.Step: GET handlers are views (functions of the store), not
  steps.
- Dormitory.StepPreservesValid, Dormitory.RunPreservesValid and
  Dormitory.ReachableStoresAreValid: they hold for the corrected partial
  payment, which refuses a split that leaves no month unpaid. The
  handler as written (Findings.PartialPaymentAsWritten) can break the
  invariant from a reachable store, as Findings.ReversedRemainder shows.
- Accommodation.MoveIn: the fields of the `payment` object
  (`month_from`, `month_to`, `year`) are taken as present. The handler
  reads them without a presence check and without the
  `month_to || month_from` default of charge creation; an absent
  `month_to` would slip past both range checks (a comparison with
  `undefined` is false) and reach the insert with no amount. That
  case belongs to JavaScript's coercion of missing values, which the
  model does not represent.
- Accommodation.MoveIn: the response's `payment_created` is the
  corrected flag, true exactly when a charge was recorded. The flag as
  written is Findings.PaymentCreatedAsWritten.
- Accommodation.HeadcountEffects: the building-wide conservation under a
  transfer is stated over the number of active entries. It is not stated
  as a sum of `occupied_beds` over the rooms map. Under the invariant the
  two agree room by room.

## Findings

| source | as written | input that shows it | evidently intended | confidence | as-written member | corrected member |
|---|---|---|---|---|---|---|
| routes/accommodation.js:186 | `payment_created` is computed from `create_payment` alone | a move-in with `create_payment: true` and no `payment` object succeeds, records no charge and answers `payment_created: true` | report a charge exactly when one was created (`create_payment && payment`, line 131) | high, not executed | Findings.PaymentFlagWithoutPayment | Findings.PaymentFlagReportsCharge |
| routes/payments.js:199-224 | the split only refuses `monthsPaid === 0`, not a payment covering every month of the charge | charge Jan–Mar for 1500; pay 1200, which leaves Jan–Feb paid at 1200 and Mar unpaid; reopen Jan–Feb with PUT status `unpaid`; pay 1100; the remainder is written as March–February for 100 | leave at least one month for the remainder, or refuse the split | medium, not executed; the reopening PUT is not something the bundled web client sends | Findings.ReversedRemainder | Payments.PartialPayment |

=== FILE: accommodation.dfy ===
/** The compound occupancy handlers: move-in (with an optional first
    charge), transfer and checkout. Each runs as one atomic step: it
    either commits all of its writes or fails with an error and commits
    nothing. */
module Accommodation {
  import opened Types
  import opened Ledger
  import opened Billing
  import opened State

  /** The optional `payment` object of a move-in request. */
  datatype ChargeSpec = ChargeSpec(monthFrom: int, monthTo: int, year: int, markAsPaid: bool)

  datatype MoveInRequest = MoveInRequest(
    student: StudentId,
    room: RoomId,
    dateIn: Option<Date>,
    createPayment: bool,
    payment: Option<ChargeSpec>)

  /** The `room_status` snapshot of a move-in response. */
  datatype RoomSnapshot = RoomSnapshot(roomNumber: string, occupiedBeds: int, totalBeds: int, availableBeds: int)

  datatype MoveInResponse = MoveInResponse(entry: EntryId, paymentCreated: bool, roomStatus: RoomSnapshot)

  /** A charge is created only when `create_payment` is set and a
      `payment` object was sent. */
  predicate WantsCharge(req: MoveInRequest) {
    req.createPayment && req.payment.Some?
  }

  /** The `payment_created` flag of the response. It reports whether a
      charge was actually requested (see the findings for the flag as the
      handler computes it). */
  function PaymentCreated(req: MoveInRequest): bool {
    WantsCharge(req)
  }

  /** The student has an active entry in an existing room: a row of the
      active-check join (accommodation joined with rooms). */
  predicate Housed(d: Dorm, s: StudentId) {
    exists i :: 0 <= i < |d.entries| && IsActiveFor(d.entries[i], s) && d.entries[i].room in d.rooms
  }

  /** The room number of the student's active entry, as the active-check
      join reports it. */
  function HousedRoomNumber(d: Dorm, s: StudentId): (r: Option<string>)
    ensures r.None? <==> !Housed(d, s)
    ensures r.Some? ==>
      exists i :: 0 <= i < |d.entries| && IsActiveFor(d.entries[i], s) && d.entries[i].room in d.rooms
                  && r.value == d.rooms[d.entries[i].room].number
  {
    match FirstActiveFor(d.entries, s, d.rooms.Keys)
    case None => None
    case Some(i) => Some(d.rooms[d.entries[i].room].number)
  }

  /** The charge a move-in creates from `spec`: priced from its months, paid
      (and dated with the move-in date) exactly when `mark_as_paid`. */
  function MoveInCharge(d: Dorm, student: StudentId, spec: ChargeSpec, dateIn: Date): Charge {
    Charge(d.nextChargeId, student, spec.monthFrom, spec.monthTo, spec.year,
           MonthCount(spec.monthFrom, spec.monthTo) * MONTHLY_RATE,
           if spec.markAsPaid then Some(dateIn) else None,
           if spec.markAsPaid then Paid else Unpaid)
  }

  /** The student guards of a move-in pass: the student is not housed and
      the room exists with a free bed. */
  predicate CanHouse(d: Dorm, req: MoveInRequest) {
    !Housed(d, req.student) && req.room in d.rooms && d.rooms[req.room].occupiedBeds < d.rooms[req.room].totalBeds
  }

  /** The charge a move-in asks for intersects no stored charge of the
      account, per the duplicate-period query. */
  predicate ChargeFits(d: Dorm, student: StudentId, spec: ChargeSpec) {
    forall i :: 0 <= i < |d.charges| ==> !Conflicts(d.charges[i], student, spec.year, spec.monthFrom, spec.monthTo)
  }

  /** POST /accommodation: houses a student in a room with a free bed and,
      when asked, records the first charge in the same step. */
  function MoveIn(d: Dorm, req: MoveInRequest, now: Date): (r: Result<(Dorm, MoveInResponse)>)
    // A student already housed is rejected, naming the room they are in.
    ensures Housed(d, req.student) ==> r == Err(StudentAlreadyHoused(HousedRoomNumber(d, req.student).value))
    ensures ActiveRoomsExist(d.rooms, d.entries) && HasActive(d.entries, req.student) ==>
      r.Err? && r.error.StudentAlreadyHoused?
    // A missing room is not found; a room without a free bed is full.
    ensures !Housed(d, req.student) && req.room !in d.rooms ==> r == Err(RoomNotFound)
    ensures !Housed(d, req.student) && req.room in d.rooms
            && d.rooms[req.room].totalBeds - d.rooms[req.room].occupiedBeds <= 0 ==>
      r == Err(RoomFull(d.rooms[req.room].occupiedBeds, d.rooms[req.room].totalBeds))
    // A requested charge with a bad month range rolls the whole move-in back
    // with the range error.
    ensures WantsCharge(req) && !WellFormedRange(req.payment.value.monthFrom, req.payment.value.monthTo) ==> r.Err?
    ensures CanHouse(d, req) && WantsCharge(req)
            && CheckMonths(req.payment.value.monthFrom, req.payment.value.monthTo).Some? ==>
      r == Err(CheckMonths(req.payment.value.monthFrom, req.payment.value.monthTo).value)
    // So does one that overlaps a stored charge of the account, naming that
    // charge's period.
    ensures CanHouse(d, req) && WantsCharge(req)
            && WellFormedRange(req.payment.value.monthFrom, req.payment.value.monthTo)
            && !ChargeFits(d, req.student, req.payment.value) ==>
      r.Err? && r.error.PeriodOverlap?
    ensures r.Err? && r.error.PeriodOverlap? ==>
      && WantsCharge(req)
      && exists i :: 0 <= i < |d.charges|
           && Conflicts(d.charges[i], req.student, req.payment.value.year, req.payment.value.monthFrom, req.payment.value.monthTo)
           && r.error == PeriodOverlap(d.charges[i].monthFrom, d.charges[i].monthTo, req.payment.value.year)
    // A request that passes every guard is carried out.
    ensures CanHouse(d, req)
            && (WantsCharge(req) ==> WellFormedRange(req.payment.value.monthFrom, req.payment.value.monthTo)
                                     && ChargeFits(d, req.student, req.payment.value)) ==>
      r.Ok?
    ensures r.Ok? ==> req.room in d.rooms
    ensures r.Ok? && req.room in d.rooms ==>
      var (d', resp) := r.value;
      var before := d.rooms[req.room];
      && before.occupiedBeds < before.totalBeds
      // the room gains exactly one occupant and nothing else changes in it or elsewhere
      && d'.rooms == d.rooms[req.room := before.(occupiedBeds := before.occupiedBeds + 1)]
      // exactly one new active entry, for this student in this room
      && d'.entries == d.entries + [Entry(req.student, req.room, req.dateIn.GetOr(now), None, Active)]
      && resp.entry == |d.entries|
      && resp.roomStatus.roomNumber == before.number && resp.roomStatus.totalBeds == before.totalBeds
      && resp.roomStatus.occupiedBeds == d'.rooms[req.room].occupiedBeds <= d'.rooms[req.room].totalBeds
      && resp.roomStatus.availableBeds == d'.rooms[req.room].totalBeds - d'.rooms[req.room].occupiedBeds
      && d'.students == d.students && d'.nextRoomId == d.nextRoomId && d'.nextStudentId == d.nextStudentId
    // Without a requested charge the charge ledger is untouched.
    ensures r.Ok? && !WantsCharge(req) ==>
      r.value.0.charges == d.charges && r.value.0.nextChargeId == d.nextChargeId
    // With one, exactly one charge is appended, priced at the monthly rate,
    // paid and dated exactly when `mark_as_paid`.
    ensures r.Ok? && WantsCharge(req) ==>
      var spec := req.payment.value;
      var d' := r.value.0;
      && |d'.charges| == |d.charges| + 1
      && d'.charges[..|d.charges|] == d.charges
      && d'.nextChargeId == d.nextChargeId + 1
      && var c := d'.charges[|d.charges|];
      && c.id == d.nextChargeId && c.student == req.student && c.year == spec.year
      && c.monthFrom == spec.monthFrom && c.monthTo == spec.monthTo && WellFormedRange(c.monthFrom, c.monthTo)
      && c.amount == (spec.monthTo - spec.monthFrom + 1) * MONTHLY_RATE
      && (c.status == Paid <==> spec.markAsPaid)
      && c.paymentDate == (if spec.markAsPaid then Some(req.dateIn.GetOr(now)) else None)
      && forall i :: 0 <= i < |d.charges| ==> !Conflicts(d.charges[i], req.student, spec.year, spec.monthFrom, spec.monthTo)
  {
    match HousedRoomNumber(d, req.student)
    case Some(number) => Err(StudentAlreadyHoused(number))
    case None =>
      if req.room !in d.rooms then Err(RoomNotFound)
      else
        var room := d.rooms[req.room];
        if room.totalBeds - room.occupiedBeds <= 0 then Err(RoomFull(room.occupiedBeds, room.totalBeds))
        else
          var dateIn := req.dateIn.GetOr(now);
          var housed := d.(rooms := AdjustOccupancy(d.rooms, req.room, 1),
                           entries := d.entries + [Entry(req.student, req.room, dateIn, None, Active)]);
          var after := housed.rooms[req.room];
          var response := MoveInResponse(|d.entries|, PaymentCreated(req),
            RoomSnapshot(room.number, after.occupiedBeds, after.totalBeds, after.totalBeds - after.occupiedBeds));
          if !WantsCharge(req) then Ok((housed, response))
          else
            var spec := req.payment.value;
            match CheckMonths(spec.monthFrom, spec.monthTo)
            case Some(e) => Err(e)
            case None =>
              var charges :- Admit(d.charges, MoveInCharge(d, req.student, spec, dateIn));
              Ok((housed.(charges := charges, nextChargeId := d.nextChargeId + 1), response))
  }

  /** The ledger half of a move-in: one more occupant in a room with a
      free bed and one new active entry for a student not yet housed keep
      the counters, the bounds and one-active-entry-per-student. */
  lemma MoveInKeepsLedger(rooms: map<RoomId, Room>, es: seq<Entry>, e: Entry)
    requires LedgerValid(rooms, es)
    requires e.status == Active && e.room in rooms && rooms[e.room].occupiedBeds < rooms[e.room].totalBeds
    requires !HasActive(es, e.student)
    ensures LedgerValid(AdjustOccupancy(rooms, e.room, 1), es + [e])
  {
    var rooms' := AdjustOccupancy(rooms, e.room, 1);
    forall k | k in rooms'
      ensures rooms'[k].occupiedBeds == CountActive(es + [e], k)
    {
      CountActiveAppend(es, e, k);
    }
    assert forall i :: 0 <= i < |es| ==> (es + [e])[i] == es[i];
  }

  /** Move-in preserves the whole store invariant. */
  lemma MoveInPreservesValid(d: Dorm, req: MoveInRequest, now: Date)
    requires Valid(d)
    requires MoveIn(d, req, now).Ok?
    ensures Valid(MoveIn(d, req, now).value.0)
  {
    var d' := MoveIn(d, req, now).value.0;
    var e := Entry(req.student, req.room, req.dateIn.GetOr(now), None, Active);
    assert !HasActive(d.entries, req.student);
    MoveInKeepsLedger(d.rooms, d.entries, e);
    assert d'.rooms == AdjustOccupancy(d.rooms, req.room, 1) && d'.entries == d.entries + [e];
    assert UniqueRoomNumbers(d'.rooms);
    if WantsCharge(req) {
      var c := MoveInCharge(d, req.student, req.payment.value, req.dateIn.GetOr(now));
      AdmitPreservesValid(d.charges, c);
      assert d'.charges == d.charges + [c];
    }
  }

  /** POST /accommodation/:id/transfer: closes an active entry as
      transferred and opens a new active entry for the same student in a
      different room with a free bed. Answers the new entry's identifier. */
  function Transfer(d: Dorm, id: EntryId, newRoom: RoomId, date: Option<Date>, now: Date): (r: Result<(Dorm, EntryId)>)
    ensures !(0 <= id < |d.entries| && d.entries[id].status == Active) ==> r == Err(ActiveEntryNotFound)
    ensures 0 <= id < |d.entries| && d.entries[id].status == Active && d.entries[id].room == newRoom ==>
      r == Err(SameRoom)
    ensures newRoom !in d.rooms ==> r.Err?
    ensures (0 <= id < |d.entries| && d.entries[id].status == Active && d.entries[id].room != newRoom
             && newRoom !in d.rooms) ==>
      r == Err(RoomNotFound)
    ensures (0 <= id < |d.entries| && d.entries[id].status == Active && d.entries[id].room != newRoom
             && newRoom in d.rooms && d.rooms[newRoom].occupiedBeds >= d.rooms[newRoom].totalBeds) ==>
      r == Err(RoomFull(d.rooms[newRoom].occupiedBeds, d.rooms[newRoom].totalBeds))
    ensures r.Ok? ==>
      var (d', newId) := r.value;
      var prior := d.entries[id];
      var when := date.GetOr(now);
      && 0 <= id < |d.entries| && prior.status == Active && prior.room != newRoom
      && newRoom in d.rooms && d.rooms[newRoom].occupiedBeds < d.rooms[newRoom].totalBeds
      && newId == |d.entries| && |d'.entries| == |d.entries| + 1
      // the old entry is closed as transferred on the transfer date
      && d'.entries[id] == prior.(status := Transferred, dateOut := Some(when))
      // one new active entry for the same student in the new room
      && d'.entries[newId] == Entry(prior.student, newRoom, when, None, Active)
      && (forall i :: 0 <= i < |d.entries| && i != id ==> d'.entries[i] == d.entries[i])
      // the source loses one occupant, the destination gains one, nothing else in any room changes
      && d'.rooms.Keys == d.rooms.Keys
      && (forall k :: k in d.rooms ==>
            d'.rooms[k] == d.rooms[k].(occupiedBeds := d.rooms[k].occupiedBeds
                                                        - (if k == prior.room then 1 else 0)
                                                        + (if k == newRoom then 1 else 0)))
      && d'.charges == d.charges && d'.students == d.students
      && d'.nextRoomId == d.nextRoomId && d'.nextStudentId == d.nextStudentId && d'.nextChargeId == d.nextChargeId
    // A transfer that passes every guard is carried out.
    ensures 0 <= id < |d.entries| && d.entries[id].status == Active && d.entries[id].room != newRoom
            && newRoom in d.rooms && d.rooms[newRoom].occupiedBeds < d.rooms[newRoom].totalBeds ==>
      r.Ok?
  {
    if !(0 <= id < |d.entries| && d.entries[id].status == Active) then Err(ActiveEntryNotFound)
    else
      var current := d.entries[id];
      if current.room == newRoom then Err(SameRoom)
      else if newRoom !in d.rooms then Err(RoomNotFound)
      else
        var dest := d.rooms[newRoom];
        if dest.totalBeds - dest.occupiedBeds <= 0 then Err(RoomFull(dest.occupiedBeds, dest.totalBeds))
        else
          var when := date.GetOr(now);
          var rooms := AdjustOccupancy(AdjustOccupancy(d.rooms, current.room, -1), newRoom, 1);
          var entries := d.entries[id := Close(current, when, Transferred)]
                         + [Entry(current.student, newRoom, when, None, Active)];
          Ok((d.(rooms := rooms, entries := entries), |d.entries|))
  }

  /** The ledger half of a transfer: closing the source entry, opening
      the destination entry and moving one count between the rooms keeps
      the counters, the bounds and one-active-entry-per-student. */
  lemma TransferKeepsLedger(rooms: map<RoomId, Room>, es: seq<Entry>, id: EntryId, newRoom: RoomId, when: Date)
    requires LedgerValid(rooms, es)
    requires 0 <= id < |es| && es[id].status == Active && es[id].room != newRoom
    requires newRoom in rooms && rooms[newRoom].occupiedBeds < rooms[newRoom].totalBeds
    ensures var rooms' := AdjustOccupancy(AdjustOccupancy(rooms, es[id].room, -1), newRoom, 1);
      var es' := es[id := Close(es[id], when, Transferred)] + [Entry(es[id].student, newRoom, when, None, Active)];
      LedgerValid(rooms', es')
  {
    var prior := es[id];
    var closed := Close(prior, when, Transferred);
    var reopened := Entry(prior.student, newRoom, when, None, Active);
    var mid := es[id := closed];
    var es' := mid + [reopened];
    var rooms' := AdjustOccupancy(AdjustOccupancy(rooms, prior.room, -1), newRoom, 1);
    forall k | k in rooms'
      ensures CountActive(es', k)
              == CountActive(es, k) - (if k == prior.room then 1 else 0) + (if k == newRoom then 1 else 0)
    {
      CountActiveUpdate(es, id, closed, k);
      CountActiveAppend(mid, reopened, k);
    }
    assert CountActive(es, prior.room) >= 1;
    forall i, j | 0 <= i < j < |es'| && es'[i].status == Active && es'[j].status == Active
      ensures es'[i].student != es'[j].student
    {
      if j == |es| {
        assert i != id && es'[i] == es[i];
        if i < id {
          assert es[i].student != es[id].student;
        } else {
          assert es[id].student != es[i].student;
        }
      }
    }
  }

  /** Transfer preserves the whole store invariant; in particular the
      blind decrement of the source room cannot go below zero. */
  lemma TransferPreservesValid(d: Dorm, id: EntryId, newRoom: RoomId, date: Option<Date>, now: Date)
    requires Valid(d)
    requires Transfer(d, id, newRoom, date, now).Ok?
    ensures Valid(Transfer(d, id, newRoom, date, now).value.0)
  {
    TransferKeepsLedger(d.rooms, d.entries, id, newRoom, date.GetOr(now));
    var d' := Transfer(d, id, newRoom, date, now).value.0;
    assert forall k :: k in d'.rooms ==> d'.rooms[k].number == d.rooms[k].number;
  }

  /** PUT /accommodation/:id/checkout: moves an active entry out on the
      given date and frees its bed. Answers the closed entry. */
  function Checkout(d: Dorm, id: EntryId, date: Option<Date>, now: Date): (r: Result<(Dorm, Entry)>)
    ensures !(0 <= id < |d.entries|) ==> r == Err(EntryNotFound)
    ensures 0 <= id < |d.entries| && d.entries[id].status != Active ==> r == Err(AlreadyMovedOut)
    ensures 0 <= id < |d.entries| && d.entries[id].status == Active ==> r.Ok?
    ensures r.Ok? ==>
      var (d', closed) := r.value;
      var prior := d.entries[id];
      && 0 <= id < |d.entries| && prior.status == Active
      && closed == prior.(status := MovedOut, dateOut := Some(date.GetOr(now)))
      && d'.entries == d.entries[id := closed]
      // the room loses one occupant; nothing else in any room changes
      && d'.rooms.Keys == d.rooms.Keys
      && (forall k :: k in d.rooms ==>
            d'.rooms[k] == d.rooms[k].(occupiedBeds := d.rooms[k].occupiedBeds - (if k == prior.room then 1 else 0)))
      && d'.charges == d.charges && d'.students == d.students
      && d'.nextRoomId == d.nextRoomId && d'.nextStudentId == d.nextStudentId && d'.nextChargeId == d.nextChargeId
  {
    if !(0 <= id < |d.entries|) then Err(EntryNotFound)
    else
      var current := d.entries[id];
      if current.status != Active then Err(AlreadyMovedOut)
      else
        var closed := Close(current, date.GetOr(now), MovedOut);
        Ok((d.(entries := d.entries[id := closed], rooms := AdjustOccupancy(d.rooms, current.room, -1)), closed))
  }

  /** Checkout preserves the whole store invariant; in particular the blind
      decrement of the room cannot go below zero. */
  lemma CheckoutPreservesValid(d: Dorm, id: EntryId, date: Option<Date>, now: Date)
    requires Valid(d)
    requires Checkout(d, id, date, now).Ok?
    ensures Valid(Checkout(d, id, date, now).value.0)
  {
    var (d', closed) := Checkout(d, id, date, now).value;
    CheckoutKeepsLedger(d.rooms, d.entries, id, date.GetOr(now));
    assert d'.rooms == AdjustOccupancy(d.rooms, d.entries[id].room, -1);
    assert forall k :: k in d'.rooms ==> d'.rooms[k].number == d.rooms[k].number;
  }

  /** The ledger half of a checkout: closing an active entry and taking one
      count off its room keeps the counters, the bounds and
      one-active-entry-per-student. */
  lemma CheckoutKeepsLedger(rooms: map<RoomId, Room>, es: seq<Entry>, id: EntryId, when: Date)
    requires LedgerValid(rooms, es)
    requires 0 <= id < |es| && es[id].status == Active
    ensures LedgerValid(AdjustOccupancy(rooms, es[id].room, -1), es[id := Close(es[id], when, MovedOut)])
  {
    var closed := Close(es[id], when, MovedOut);
    forall k | k in rooms
      ensures CountActive(es[id := closed], k) == CountActive(es, k) - (if k == es[id].room then 1 else 0)
    {
      CountActiveUpdate(es, id, closed, k);
    }
    assert CountActive(es, es[id].room) >= 1;
  }

  /** Moving in and then checking the new entry out restores every room
      exactly, and leaves the new entry moved out. */
  lemma MoveInThenCheckout(d: Dorm, req: MoveInRequest, now: Date, out: Option<Date>)
    requires MoveIn(d, req, now).Ok?
    ensures var (d1, resp) := MoveIn(d, req, now).value;
      var r := Checkout(d1, resp.entry, out, now);
      && r.Ok?
      && r.value.0.rooms == d.rooms
      && r.value.0.entries[resp.entry].status == MovedOut
      && r.value.0.charges == d1.charges
  {
    var (d1, resp) := MoveIn(d, req, now).value;
    var d2 := Checkout(d1, resp.entry, out, now).value.0;
    assert d2.rooms == d.rooms;
  }

  /** Moving in, transferring to another room and checking out there leaves
      every room's counter as it was before the move-in. */
  lemma MoveInTransferCheckout(d: Dorm, req: MoveInRequest, now: Date, dest: RoomId, when: Option<Date>, out: Option<Date>)
    requires MoveIn(d, req, now).Ok?
    requires Transfer(MoveIn(d, req, now).value.0, MoveIn(d, req, now).value.1.entry, dest, when, now).Ok?
    ensures var (d1, resp) := MoveIn(d, req, now).value;
      var (d2, moved) := Transfer(d1, resp.entry, dest, when, now).value;
      var r := Checkout(d2, moved, out, now);
      && r.Ok?
      && r.value.0.rooms == d.rooms
  {
    var (d1, resp) := MoveIn(d, req, now).value;
    var (d2, moved) := Transfer(d1, resp.entry, dest, when, now).value;
    var d3 := Checkout(d2, moved, out, now).value.0;
    assert d3.rooms == d.rooms;
  }

  /** A move-in houses one more person in the building, a transfer moves
      one without changing the number housed, and a checkout houses one
      fewer. */
  lemma HeadcountEffects(d: Dorm, req: MoveInRequest, id: EntryId, newRoom: RoomId, date: Option<Date>, now: Date)
    ensures MoveIn(d, req, now).Ok? ==> Headcount(MoveIn(d, req, now).value.0.entries) == Headcount(d.entries) + 1
    ensures Transfer(d, id, newRoom, date, now).Ok? ==>
      Headcount(Transfer(d, id, newRoom, date, now).value.0.entries) == Headcount(d.entries)
    ensures Checkout(d, id, date, now).Ok? ==>
      Headcount(Checkout(d, id, date, now).value.0.entries) == Headcount(d.entries) - 1
  {
    if MoveIn(d, req, now).Ok? {
      HeadcountAppend(d.entries, Entry(req.student, req.room, req.dateIn.GetOr(now), None, Active));
    }
    if Transfer(d, id, newRoom, date, now).Ok? {
      var prior := d.entries[id];
      var when := date.GetOr(now);
      var closed := Close(prior, when, Transferred);
      HeadcountUpdate(d.entries, id, closed);
      HeadcountAppend(d.entries[id := closed], Entry(prior.student, newRoom, when, None, Active));
    }
    if Checkout(d, id, date, now).Ok? {
      HeadcountUpdate(d.entries, id, Checkout(d, id, date, now).value.1);
    }
  }
}

=== FILE: billing.dfy ===
/** The billing engine: month ranges, the fixed monthly rate, the overlap
    test the handlers run in SQL, the charge-ledger invariant, and the
    split of a charge into a paid prefix and an unpaid remainder. */
module Billing {
  import opened Types

  /** 500 hryvnias a month, in hundredths (routes/accommodation.js:5,
      routes/payments.js:5). */
  const MONTHLY_RATE: int := 50000

  /** A submitted amount may differ from the computed one by one hryvnia. */
  const AMOUNT_TOLERANCE: int := 100

  function MonthCount(from: int, to: int): int {
    to - from + 1
  }

  predicate WellFormedRange(from: int, to: int) {
    1 <= from <= to <= 12
  }

  predicate ChargeWellFormed(c: Charge) {
    WellFormedRange(c.monthFrom, c.monthTo)
  }

  /** The month validation shared by move-in and charge creation: a
      reversed range is reported before a month outside 1..12. */
  function CheckMonths(from: int, to: int): (r: Option<Error>)
    ensures r.None? <==> WellFormedRange(from, to)
    ensures to < from ==> r == Some(MonthsReversed)
    ensures from <= to && !WellFormedRange(from, to) ==> r == Some(MonthOutOfRange)
  {
    if to < from then Some(MonthsReversed)
    else if from < 1 || from > 12 || to < 1 || to > 12 then Some(MonthOutOfRange)
    else None
  }

  /** The three-clause period test of the duplicate-period queries, with
      `[mf, mt]` the stored charge and `[a, b]` the requested range. */
  predicate SqlOverlap(mf: int, mt: int, a: int, b: int) {
    || (mf <= a && mt >= a)
    || (mf <= b && mt >= b)
    || (mf >= a && mt <= b)
  }

  /** The standard test: `[a, b]` and `[c, d]` share a month. */
  predicate Intersects(a: int, b: int, c: int, d: int) {
    a <= d && c <= b
  }

  /** On well-formed ranges the SQL predicate is exactly interval
      intersection. */
  lemma SqlOverlapIsIntersection(mf: int, mt: int, a: int, b: int)
    requires mf <= mt && a <= b
    ensures SqlOverlap(mf, mt, a, b) <==> Intersects(mf, mt, a, b)
  {
  }

  /** On a reversed stored range the SQL predicate and interval
      intersection part ways: `[3, 2]` blocks a request for March. */
  lemma SqlOverlapDiffersOnReversedRange()
    ensures SqlOverlap(3, 2, 3, 3) && !Intersects(3, 2, 3, 3)
  {
  }

  predicate SameAccount(c: Charge, student: StudentId, year: int) {
    c.student == student && c.year == year
  }

  /** A stored charge the duplicate-period query would return for a
      request of `[a, b]` by `student` in `year`. */
  predicate Conflicts(c: Charge, student: StudentId, year: int, a: int, b: int) {
    SameAccount(c, student, year) && SqlOverlap(c.monthFrom, c.monthTo, a, b)
  }

  /** Two charges of one account never share a month. */
  predicate Disjoint(c1: Charge, c2: Charge) {
    !SameAccount(c1, c2.student, c2.year) || !Intersects(c1.monthFrom, c1.monthTo, c2.monthFrom, c2.monthTo)
  }

  /** Same record, account and months: all the charge invariant looks at. */
  predicate SamePeriod(c1: Charge, c2: Charge) {
    c1.id == c2.id && c1.student == c2.student && c1.year == c2.year
    && c1.monthFrom == c2.monthFrom && c1.monthTo == c2.monthTo
  }

  predicate UniqueIds(cs: seq<Charge>) {
    forall i, j :: 0 <= i < j < |cs| ==> cs[i].id != cs[j].id
  }

  /** The charge-ledger invariant: every range well formed, identifiers
      unique, and no two charges of one (student, year) overlapping. */
  predicate ChargesValid(cs: seq<Charge>) {
    && (forall i :: 0 <= i < |cs| ==> ChargeWellFormed(cs[i]))
    && UniqueIds(cs)
    && (forall i, j :: 0 <= i < j < |cs| ==> Disjoint(cs[i], cs[j]))
  }

  /** The first stored charge the duplicate-period query returns, if any. */
  function FirstConflict(cs: seq<Charge>, student: StudentId, year: int, a: int, b: int): (r: Option<Charge>)
    ensures r.None? <==> forall i :: 0 <= i < |cs| ==> !Conflicts(cs[i], student, year, a, b)
    ensures r.Some? ==> r.value in cs && Conflicts(r.value, student, year, a, b)
    decreases |cs|
  {
    if cs == [] then None
    else if Conflicts(cs[0], student, year, a, b) then Some(cs[0])
    else
      var rest := FirstConflict(cs[1..], student, year, a, b);
      assert forall i :: 1 <= i < |cs| ==> cs[i] == cs[1..][i - 1];
      rest
  }

  /** Stores charge `c` unless a charge of the same account overlaps it,
      in which case the conflicting period is reported. */
  function Admit(cs: seq<Charge>, c: Charge): (r: Result<seq<Charge>>)
    ensures r.Ok? <==> forall i :: 0 <= i < |cs| ==> !Conflicts(cs[i], c.student, c.year, c.monthFrom, c.monthTo)
    ensures r.Ok? ==> r.value == cs + [c]
    ensures r.Err? ==>
      && r.error.PeriodOverlap?
      && r.error.year == c.year
      && exists i :: 0 <= i < |cs| && Conflicts(cs[i], c.student, c.year, c.monthFrom, c.monthTo)
           && cs[i].monthFrom == r.error.monthFrom && cs[i].monthTo == r.error.monthTo
  {
    match FirstConflict(cs, c.student, c.year, c.monthFrom, c.monthTo)
    case Some(x) => Err(PeriodOverlap(x.monthFrom, x.monthTo, c.year))
    case None => Ok(cs + [c])
  }

  /** The overlap query rejects exactly the requests that intersect a
      stored charge of the same account, paid or unpaid. */
  lemma AdmitRejectsExactlyIntersections(cs: seq<Charge>, c: Charge)
    requires forall i :: 0 <= i < |cs| ==> ChargeWellFormed(cs[i])
    requires ChargeWellFormed(c)
    ensures Admit(cs, c).Err? <==>
      exists i :: 0 <= i < |cs| && SameAccount(cs[i], c.student, c.year)
        && Intersects(cs[i].monthFrom, cs[i].monthTo, c.monthFrom, c.monthTo)
  {
    forall i | 0 <= i < |cs|
      ensures SqlOverlap(cs[i].monthFrom, cs[i].monthTo, c.monthFrom, c.monthTo)
              <==> Intersects(cs[i].monthFrom, cs[i].monthTo, c.monthFrom, c.monthTo)
    {
      SqlOverlapIsIntersection(cs[i].monthFrom, cs[i].monthTo, c.monthFrom, c.monthTo);
    }
  }

  /** Admitting a well-formed charge with a fresh identifier keeps the
      charge ledger valid. */
  lemma AdmitPreservesValid(cs: seq<Charge>, c: Charge)
    requires ChargesValid(cs)
    requires ChargeWellFormed(c)
    requires forall i :: 0 <= i < |cs| ==> cs[i].id != c.id
    requires Admit(cs, c).Ok?
    ensures ChargesValid(Admit(cs, c).value)
  {
    var out := cs + [c];
    forall i | 0 <= i < |cs|
      ensures Disjoint(cs[i], c)
    {
      SqlOverlapIsIntersection(cs[i].monthFrom, cs[i].monthTo, c.monthFrom, c.monthTo);
      assert !Conflicts(cs[i], c.student, c.year, c.monthFrom, c.monthTo);
    }
    assert forall i :: 0 <= i < |cs| ==> out[i] == cs[i];
  }

  /** Whole months a payment covers: `Math.floor(paid / MONTHLY_RATE)`,
      for a positive payment. */
  function MonthsPaid(paid: int): int
    requires paid > 0
  {
    paid / MONTHLY_RATE
  }

  /** Splits unpaid charge `c` after a partial payment of `paid`: the
      original record keeps its identifier and becomes the paid prefix of
      `MonthsPaid(paid)` months with amount `paid`; a new unpaid record
      `newId` holds the remaining months and the remaining amount. */
  function Split(c: Charge, paid: int, date: Option<Date>, newId: ChargeId): (parts: (Charge, Charge))
    requires paid > 0
  {
    var lastPaid := c.monthFrom + MonthsPaid(paid) - 1;
    (c.(monthTo := lastPaid, amount := paid, paymentDate := date, status := Paid),
     Charge(newId, c.student, lastPaid + 1, c.monthTo, c.year, c.amount - paid, None, Unpaid))
  }

  /** Month `m` lies in the range `[from, to]`. */
  predicate InRange(from: int, to: int, m: int) {
    from <= m <= to
  }

  /** The two halves of a split: amounts sum to the original and both stay
      in the original account; the paid prefix and the remainder never
      share a month and, unless the payment covers more months than the
      charge has, together cover exactly the original months; when at
      least one month is paid and at least one remains, both ranges are
      well formed and disjoint. */
  lemma SplitPartitions(c: Charge, paid: int, date: Option<Date>, newId: ChargeId)
    requires paid > 0
    ensures var (p, rest) := Split(c, paid, date, newId);
      && p.amount + rest.amount == c.amount
      && p.id == c.id && rest.id == newId
      && p.status == Paid && p.paymentDate == date
      && rest.status == Unpaid && rest.paymentDate == None
      && SameAccount(p, c.student, c.year) && SameAccount(rest, c.student, c.year)
      && MonthCount(p.monthFrom, p.monthTo) == MonthsPaid(paid)
      && (forall m :: !(InRange(p.monthFrom, p.monthTo, m) && InRange(rest.monthFrom, rest.monthTo, m)))
    ensures MonthsPaid(paid) <= MonthCount(c.monthFrom, c.monthTo) ==>
      var (p, rest) := Split(c, paid, date, newId);
      forall m :: InRange(c.monthFrom, c.monthTo, m) <==>
        (InRange(p.monthFrom, p.monthTo, m) || InRange(rest.monthFrom, rest.monthTo, m))
    ensures ChargeWellFormed(c) && 1 <= MonthsPaid(paid) < MonthCount(c.monthFrom, c.monthTo) ==>
      var (p, rest) := Split(c, paid, date, newId);
      ChargeWellFormed(p) && ChargeWellFormed(rest) && Disjoint(p, rest)
  {
  }

  /** A remainder always covers at least one month when the charge is not
      worth more than its months at the rate (true of every charge as
      created) and the payment is strictly partial. */
  lemma RemainderNonEmpty(c: Charge, paid: int)
    requires c.amount <= MonthCount(c.monthFrom, c.monthTo) * MONTHLY_RATE
    requires 0 < paid < c.amount
    ensures MonthsPaid(paid) < MonthCount(c.monthFrom, c.monthTo)
  {
    assert MonthsPaid(paid) * MONTHLY_RATE <= paid;
  }

  predicate OwedBy(c: Charge, s: StudentId) {
    c.student == s && c.status == Unpaid
  }

  /** A student's debt: the sum of the amounts of their unpaid charges, 0
      when they have none. */
  function Debt(cs: seq<Charge>, s: StudentId): (total: int)
    ensures (forall i :: 0 <= i < |cs| ==> !OwedBy(cs[i], s)) ==> total == 0
    ensures (forall i :: 0 <= i < |cs| ==> cs[i].amount >= 0) ==> total >= 0
    decreases |cs|
  {
    if cs == [] then 0
    else
      var prefix := cs[..|cs| - 1];
      assert forall i :: 0 <= i < |prefix| ==> prefix[i] == cs[i];
      Debt(prefix, s) + (if OwedBy(cs[|cs| - 1], s) then cs[|cs| - 1].amount else 0)
  }

  lemma DebtAppend(cs: seq<Charge>, c: Charge, s: StudentId)
    ensures Debt(cs + [c], s) == Debt(cs, s) + (if OwedBy(c, s) then c.amount else 0)
  {
    assert (cs + [c])[..|cs|] == cs;
  }

  /** Rewriting one charge changes a debt by exactly the difference of
      that charge's contributions. */
  lemma {:induction false} DebtUpdate(cs: seq<Charge>, i: int, c: Charge, s: StudentId)
    requires 0 <= i < |cs|
    ensures Debt(cs[i := c], s)
            == Debt(cs, s) - (if OwedBy(cs[i], s) then cs[i].amount else 0) + (if OwedBy(c, s) then c.amount else 0)
    decreases |cs|
  {
    var n := |cs|;
    var prefix := cs[..n - 1];
    if i == n - 1 {
      assert cs[i := c][..n - 1] == prefix;
    } else {
      assert cs[i := c][..n - 1] == prefix[i := c];
      DebtUpdate(prefix, i, c, s);
    }
  }

  /** Month `m` of `year` is billed to `student` by some charge. */
  predicate Billed(cs: seq<Charge>, student: StudentId, year: int, m: int) {
    exists i :: 0 <= i < |cs| && SameAccount(cs[i], student, year) && InRange(cs[i].monthFrom, cs[i].monthTo, m)
  }

  /** Rewriting one charge without touching its identifier, account or
      months keeps the charge ledger valid. */
  lemma ReplaceKeepsChargesValid(cs: seq<Charge>, i: int, c: Charge)
    requires ChargesValid(cs)
    requires 0 <= i < |cs| && SamePeriod(c, cs[i])
    ensures ChargesValid(cs[i := c])
  {
    assert forall j :: 0 <= j < |cs| ==> SamePeriod(cs[i := c][j], cs[j]);
  }

  /** Replacing a charge by the paid prefix of a split and appending the
      remainder under a fresh identifier keeps the charge ledger valid,
      provided at least one month is paid and one remains. */
  lemma SplitKeepsChargesValid(cs: seq<Charge>, i: int, paid: int, date: Option<Date>, newId: ChargeId)
    requires ChargesValid(cs)
    requires forall j :: 0 <= j < |cs| ==> cs[j].id < newId
    requires 0 <= i < |cs| && paid > 0
    requires 1 <= MonthsPaid(paid) < MonthCount(cs[i].monthFrom, cs[i].monthTo)
    ensures var (p, rest) := Split(cs[i], paid, date, newId);
      ChargesValid(cs[i := p] + [rest])
  {
    var c := cs[i];
    var (p, rest) := Split(c, paid, date, newId);
    SplitPartitions(c, paid, date, newId);
    var cs' := cs[i := p] + [rest];
    var n := |cs|;
    assert |cs'| == n + 1 && cs'[i] == p && cs'[n] == rest;
    assert forall j :: 0 <= j < n && j != i ==> cs'[j] == cs[j];
    // each half lies inside the original range, so it inherits disjointness
    forall j | 0 <= j < n && j != i
      ensures Disjoint(cs[j], p) && Disjoint(cs[j], rest) && Disjoint(p, cs[j]) && Disjoint(rest, cs[j])
    {
      if j < i { assert Disjoint(cs[j], c); } else { assert Disjoint(c, cs[j]); }
    }
    forall a, b | 0 <= a < b < n + 1
      ensures Disjoint(cs'[a], cs'[b]) && cs'[a].id != cs'[b].id
    {
      if b == n {
        if a != i { assert cs'[a] == cs[a]; }
      } else if a != i && b != i {
        assert cs'[a] == cs[a] && cs'[b] == cs[b];
      }
    }
  }
}

=== FILE: dormitory.dfy ===
/** The store as a whole: every state-changing handler as one atomic step
    over the shared store, and the invariant kept along any sequence of
    requests. A failed step commits nothing. */
module Dormitory {
  import opened Types
  import opened State
  import opened Accommodation
  import opened Payments
  import opened Rooms
  import opened Students

  /** The state-changing requests the handlers serve. */
  datatype Request =
    | MoveInReq(moveIn: MoveInRequest)
    | TransferReq(entry: EntryId, destination: RoomId, date: Option<Date>)
    | CheckoutReq(entry: EntryId, date: Option<Date>)
    | ClearRoomReq(room: RoomId)
    | CreateChargeReq(charge: ChargeRequest)
    | PartialPaymentReq(chargeId: ChargeId, paid: int, date: Option<Date>)
    | UpdateChargeReq(chargeId: ChargeId, date: Option<Date>, status: ChargeStatus)
    | DeleteChargeReq(chargeId: ChargeId)
    | CreateRoomReq(number: string, floor: int, totalBeds: int)
    | UpdateRoomReq(room: RoomId, number: string, floor: int, totalBeds: int)
    | DeleteRoomReq(room: RoomId)
    | CreateStudentReq(form: Student)
    | UpdateStudentReq(student: StudentId, form: Student)
    | DeleteStudentReq(student: StudentId)

  /** The store after one request, served at instant `now`, together with
      the error it was refused with, if any. */
  function Outcome(d: Dorm, req: Request, now: Date): Result<Dorm> {
    match req
    case MoveInReq(m) => (match MoveIn(d, m, now) case Ok(v) => Ok(v.0) case Err(e) => Err(e))
    case TransferReq(id, dest, date) =>
      (match Transfer(d, id, dest, date, now) case Ok(v) => Ok(v.0) case Err(e) => Err(e))
    case CheckoutReq(id, date) => (match Checkout(d, id, date, now) case Ok(v) => Ok(v.0) case Err(e) => Err(e))
    case ClearRoomReq(k) => (match ClearRoom(d, k, now) case Ok(v) => Ok(v.0) case Err(e) => Err(e))
    case CreateChargeReq(c) => (match CreateCharge(d, c) case Ok(v) => Ok(v.0) case Err(e) => Err(e))
    case PartialPaymentReq(id, paid, date) =>
      (match PartialPayment(d, id, paid, date) case Ok(v) => Ok(v.0) case Err(e) => Err(e))
    case UpdateChargeReq(id, date, status) =>
      (match UpdateCharge(d, id, date, status) case Ok(v) => Ok(v.0) case Err(e) => Err(e))
    case DeleteChargeReq(id) => DeleteCharge(d, id)
    case CreateRoomReq(number, floor, beds) =>
      (match CreateRoom(d, number, floor, beds) case Ok(v) => Ok(v.0) case Err(e) => Err(e))
    case UpdateRoomReq(k, number, floor, beds) =>
      (match UpdateRoom(d, k, number, floor, beds) case Ok(v) => Ok(v.0) case Err(e) => Err(e))
    case DeleteRoomReq(k) => DeleteRoom(d, k)
    case CreateStudentReq(f) => (match CreateStudent(d, f) case Ok(v) => Ok(v.0) case Err(e) => Err(e))
    case UpdateStudentReq(id, f) => UpdateStudent(d, id, f)
    case DeleteStudentReq(id) => DeleteStudent(d, id)
  }

  /** The room handlers. */
  predicate RoomRequest(req: Request) {
    req.CreateRoomReq? || req.UpdateRoomReq? || req.DeleteRoomReq?
  }

  /** The student handlers. */
  predicate StudentRequest(req: Request) {
    req.CreateStudentReq? || req.UpdateStudentReq? || req.DeleteStudentReq?
  }

  /** The charge handlers. */
  predicate ChargeRequestKind(req: Request) {
    req.CreateChargeReq? || req.PartialPaymentReq? || req.UpdateChargeReq? || req.DeleteChargeReq?
  }

  /** One request: the new store on success, the unchanged store on
      failure (the transaction is rolled back). Each kind of request
      writes only its own tables. */
  function Step(d: Dorm, req: Request, now: Date): (d': Dorm)
    ensures Outcome(d, req, now).Err? ==> d' == d
    // the room handlers touch only the rooms
    ensures RoomRequest(req) ==> d'.entries == d.entries && d'.charges == d.charges && d'.students == d.students
    // the student handlers touch only the students
    ensures StudentRequest(req) ==> d'.rooms == d.rooms && d'.entries == d.entries && d'.charges == d.charges
    // the charge handlers touch only the charges
    ensures ChargeRequestKind(req) ==> d'.rooms == d.rooms && d'.entries == d.entries && d'.students == d.students
    // the occupancy handlers never touch the students; only a move-in adds a charge
    ensures !RoomRequest(req) && !StudentRequest(req) && !ChargeRequestKind(req) ==> d'.students == d.students
    ensures req.TransferReq? || req.CheckoutReq? || req.ClearRoomReq? ==> d'.charges == d.charges
    ensures req.MoveInReq? ==> d.charges <= d'.charges
  {
    match Outcome(d, req, now)
    case Ok(next) => next
    case Err(_) => d
  }

  /** Every handler keeps the store invariant, whether it succeeds or not. */
  lemma StepPreservesValid(d: Dorm, req: Request, now: Date)
    requires Valid(d)
    ensures Valid(Step(d, req, now))
  {
    if Outcome(d, req, now).Ok? {
      match req
      case MoveInReq(m) => MoveInPreservesValid(d, m, now);
      case TransferReq(id, dest, date) => TransferPreservesValid(d, id, dest, date, now);
      case CheckoutReq(id, date) => CheckoutPreservesValid(d, id, date, now);
      case ClearRoomReq(k) => ClearRoomPreservesValid(d, k, now);
      case CreateChargeReq(c) => CreateChargePreservesValid(d, c);
      case PartialPaymentReq(id, paid, date) => PartialPaymentPreservesValid(d, id, paid, date);
      case UpdateChargeReq(id, date, status) => UpdateChargePreservesValid(d, id, date, status);
      case DeleteChargeReq(id) => DeleteChargePreservesValid(d, id);
      case CreateRoomReq(number, floor, beds) => CreateRoomPreservesValid(d, number, floor, beds);
      case UpdateRoomReq(k, number, floor, beds) => UpdateRoomPreservesValid(d, k, number, floor, beds);
      case DeleteRoomReq(k) => DeleteRoomPreservesValid(d, k);
      case CreateStudentReq(f) => CreateStudentPreservesValid(d, f);
      case UpdateStudentReq(id, f) => UpdateStudentPreservesValid(d, id, f);
      case DeleteStudentReq(id) => DeleteStudentPreservesValid(d, id);
    }
  }

  /** Entry `e'` is entry `e`, possibly closed since: the same student,
      room and move-in date, and a closed entry is never reopened or
      rewritten. */
  predicate Succeeds(e: Entry, e': Entry) {
    && e'.student == e.student && e'.room == e.room && e'.dateIn == e.dateIn
    && (e.status != Active ==> e' == e)
  }

  /** The ledger is append-only history: no request removes an entry,
      reopens a closed one or rewrites who lived where since when. */
  lemma StepKeepsHistory(d: Dorm, req: Request, now: Date)
    ensures var d' := Step(d, req, now);
      && |d.entries| <= |d'.entries|
      && forall i :: 0 <= i < |d.entries| ==> Succeeds(d.entries[i], d'.entries[i])
  {
    if Outcome(d, req, now).Ok? {
      match req
      case MoveInReq(m) =>
        var d' := MoveIn(d, m, now).value.0;
        assert forall i :: 0 <= i < |d.entries| ==> d'.entries[i] == d.entries[i];
      case ClearRoomReq(k) =>
      case _ =>
    }
  }

  /** A request stamped with the instant it is served. */
  datatype Timed = Timed(req: Request, now: Date)

  /** Serves the requests in order. */
  function Run(d: Dorm, reqs: seq<Timed>): Dorm
    decreases |reqs|
  {
    if reqs == [] then d
    else Run(Step(d, reqs[0].req, reqs[0].now), reqs[1..])
  }

  /** Any sequence of requests served from a valid store, in particular
      from the empty one, leaves the store valid. */
  lemma {:induction false} RunPreservesValid(d: Dorm, reqs: seq<Timed>)
    requires Valid(d)
    ensures Valid(Run(d, reqs))
    decreases |reqs|
  {
    if reqs != [] {
      StepPreservesValid(d, reqs[0].req, reqs[0].now);
      RunPreservesValid(Step(d, reqs[0].req, reqs[0].now), reqs[1..]);
    }
  }

  /** Over any run the ledger only grows, and every entry keeps its
      student, room and move-in date; a closed entry stays as it was. */
  lemma {:induction false} RunKeepsHistory(d: Dorm, reqs: seq<Timed>)
    ensures var d' := Run(d, reqs);
      && |d.entries| <= |d'.entries|
      && forall i :: 0 <= i < |d.entries| ==> Succeeds(d.entries[i], d'.entries[i])
    decreases |reqs|
  {
    if reqs != [] {
      StepKeepsHistory(d, reqs[0].req, reqs[0].now);
      RunKeepsHistory(Step(d, reqs[0].req, reqs[0].now), reqs[1..]);
    }
  }

  lemma ReachableStoresAreValid(reqs: seq<Timed>)
    ensures Valid(Run(Init(), reqs))
  {
    RunPreservesValid(Init(), reqs);
  }
}

=== FILE: findings.dfy ===
/** Two places where the handlers, as written, do not do what they
    evidently mean to: the `payment_created` flag of a move-in, and a
    partial payment on a charge worth more than its months at the rate.
    Each is modelled as written next to a concrete input that exhibits it;
    the rest of the model uses the corrected behaviour. */
module Findings {
  import opened Types
  import opened Billing
  import opened State
  import opened Accommodation
  import opened Payments

  /** The flag as the move-in handler computes it: from `create_payment`
      alone. */
  function PaymentCreatedAsWritten(req: MoveInRequest): bool {
    req.createPayment
  }

  /** A one-room store with one registered student. */
  function SmallDorm(): (d: Dorm)
    ensures Valid(d)
  {
    Dorm(map[1 := Room("101", 1, 2, 0)], 2,
         map[1 := Student("Shevchenko", "Taras", "", 1, "History", "", None)], 2,
         [], [], 1)
  }

  /** `create_payment` without a `payment` object: the move-in succeeds and
      records no charge, yet the flag as written reports one. */
  lemma PaymentFlagWithoutPayment()
    ensures var req := MoveInRequest(1, 1, Some(20240901), true, None);
      var r := MoveIn(SmallDorm(), req, 20240901);
      && r.Ok?
      && r.value.0.charges == []
      && PaymentCreatedAsWritten(req)
      && !r.value.1.paymentCreated
  {
  }

  /** The corrected flag reports a charge exactly when the move-in
      recorded one. */
  lemma PaymentFlagReportsCharge(d: Dorm, req: MoveInRequest, now: Date)
    requires MoveIn(d, req, now).Ok?
    ensures var (d', resp) := MoveIn(d, req, now).value;
      resp.paymentCreated <==> |d'.charges| == |d.charges| + 1
    ensures var (d', resp) := MoveIn(d, req, now).value;
      !resp.paymentCreated <==> d'.charges == d.charges
  {
  }

  /** The partial-payment handler as written: no check that a month is
      left over for the remainder. */
  function PartialPaymentAsWritten(d: Dorm, id: ChargeId, paid: int, date: Option<Date>): (r: Result<(Dorm, PartialOutcome)>)
    ensures r.Ok? && PartialPayment(d, id, paid, date).Ok? ==> r == PartialPayment(d, id, paid, date)
    ensures r.Err? ==> r == PartialPayment(d, id, paid, date)
  {
    match FindUnpaid(d.charges, id)
    case None => Err(UnpaidChargeNotFound)
    case Some(i) =>
      var c := d.charges[i];
      if paid <= 0 || paid > c.amount then Err(PaidAmountOutOfRange)
      else if c.amount - paid < 1 then
        Ok((d.(charges := d.charges[i := c.(paymentDate := date, status := Paid)]), FullyPaid))
      else
        var months := MonthsPaid(paid);
        var count := MonthCount(c.monthFrom, c.monthTo);
        if months == 0 then Err(BelowMinimumPayment)
        else
          var (paidPart, rest) := Split(c, paid, date, d.nextChargeId);
          Ok((d.(charges := d.charges[i := paidPart] + [rest], nextChargeId := d.nextChargeId + 1),
              SplitOff(paid, months, c.amount - paid, count - months)))
  }

  /** On every charge priced at no more than its months at the rate, as
      every charge is when created, the handler as written and the
      corrected one agree. */
  lemma AsWrittenAgreesOnPricedCharges(d: Dorm, id: ChargeId, paid: int, date: Option<Date>)
    requires FindUnpaid(d.charges, id).Some?
    requires var c := d.charges[FindUnpaid(d.charges, id).value];
      c.amount <= MonthCount(c.monthFrom, c.monthTo) * MONTHLY_RATE
    ensures PartialPaymentAsWritten(d, id, paid, date) == PartialPayment(d, id, paid, date)
  {
    var c := d.charges[FindUnpaid(d.charges, id).value];
    if 0 < paid < c.amount {
      RemainderNonEmpty(c, paid);
    }
  }

  /** A charge for January to March, paid 1200 of 1500, then reopened by a
      status update: the paid prefix January–February is worth 1200, more
      than its two months. */
  function ReopenedStore(): (d: Dorm)
    ensures Valid(d)
  {
    var d0 := SmallDorm();
    d0.(charges := [Charge(1, 1, 1, 2, 2025, 120000, None, Unpaid),
                    Charge(2, 1, 3, 3, 2025, 30000, None, Unpaid)],
        nextChargeId := 3)
  }

  /** The store above is what the handlers themselves produce. */
  lemma ReopenedStoreIsReachable()
    ensures var d0 := SmallDorm().(charges := [Charge(1, 1, 1, 3, 2025, 150000, None, Unpaid)], nextChargeId := 2);
      && Valid(d0)
      && PartialPayment(d0, 1, 120000, Some(20250201)).Ok?
      && var d1 := PartialPayment(d0, 1, 120000, Some(20250201)).value.0;
      && UpdateCharge(d1, 1, None, Unpaid).Ok?
      && UpdateCharge(d1, 1, None, Unpaid).value.0 == ReopenedStore()
  {
  }

  /** Paying 1100 on the reopened January–February charge: the handler as
      written pays two months and writes a remainder from March back to
      February, breaking the charge ledger invariant; the corrected handler
      refuses. */
  lemma ReversedRemainder()
    ensures var r := PartialPaymentAsWritten(ReopenedStore(), 1, 110000, Some(20250301));
      && r.Ok?
      && r.value.0.charges[2] == Charge(3, 1, 3, 2, 2025, 10000, None, Unpaid)
      && !Valid(r.value.0)
    ensures PartialPayment(ReopenedStore(), 1, 110000, Some(20250301)) == Err(NoMonthsLeftToSplit)
  {
    var r := PartialPaymentAsWritten(ReopenedStore(), 1, 110000, Some(20250301));
    assert !ChargeWellFormed(r.value.0.charges[2]);
  }
}

=== FILE: ledger.dfy ===
/** The accommodation ledger: which entries are active, in which room, and
    for which student, and how those counts move under the updates the
    handlers perform (append, rewrite one entry, close a whole room). */
module Ledger {
  import opened Types

  predicate IsActiveIn(e: Entry, r: RoomId) {
    e.status == Active && e.room == r
  }

  predicate IsActiveFor(e: Entry, s: StudentId) {
    e.status == Active && e.student == s
  }

  /** Number of active entries in room `r`: the quantity `occupied_beds`
      caches. */
  function CountActive(es: seq<Entry>, r: RoomId): (n: nat)
    ensures n <= |es|
    ensures n == 0 <==> forall i :: 0 <= i < |es| ==> !IsActiveIn(es[i], r)
    decreases |es|
  {
    if es == [] then 0
    else
      var prefix := es[..|es| - 1];
      assert forall i :: 0 <= i < |prefix| ==> prefix[i] == es[i];
      CountActive(prefix, r) + (if IsActiveIn(es[|es| - 1], r) then 1 else 0)
  }

  /** The student has an active entry (the `a.status = 'active'` joins). */
  predicate HasActive(es: seq<Entry>, s: StudentId) {
    exists i :: 0 <= i < |es| && IsActiveFor(es[i], s)
  }

  /** At most one active entry per student. */
  predicate OneActivePerStudent(es: seq<Entry>) {
    forall i, j :: 0 <= i < j < |es| && es[i].status == Active && es[j].status == Active ==>
      es[i].student != es[j].student
  }

  /** The first entry, if any, that is active for `s` and whose room
      satisfies `inRooms`: the row an active-check join returns first. */
  function FirstActiveFor(es: seq<Entry>, s: StudentId, rooms: set<RoomId>): (r: Option<nat>)
    ensures r.Some? ==> r.value < |es| && IsActiveFor(es[r.value], s) && es[r.value].room in rooms
    ensures r.None? <==> forall i :: 0 <= i < |es| && IsActiveFor(es[i], s) ==> es[i].room !in rooms
    decreases |es|
  {
    if es == [] then None
    else if IsActiveFor(es[0], s) && es[0].room in rooms then Some(0)
    else
      match FirstActiveFor(es[1..], s, rooms)
      case None => None
      case Some(k) => Some(k + 1)
  }

  /** Ends entry `e` on `date` with the terminal status `status`. */
  function Close(e: Entry, date: Date, status: EntryStatus): Entry {
    e.(status := status, dateOut := Some(date))
  }

  /** Moves out every active entry in room `r` (the bulk UPDATE of the
      clear-room handler); all other entries are left as they are. */
  function CloseRoom(es: seq<Entry>, r: RoomId, date: Date): (out: seq<Entry>)
    decreases |es|
  {
    if es == [] then []
    else
      var last := es[|es| - 1];
      CloseRoom(es[..|es| - 1], r, date) + [if IsActiveIn(last, r) then Close(last, date, MovedOut) else last]
  }

  lemma CountActiveAppend(es: seq<Entry>, e: Entry, r: RoomId)
    ensures CountActive(es + [e], r) == CountActive(es, r) + (if IsActiveIn(e, r) then 1 else 0)
  {
    assert (es + [e])[..|es|] == es;
  }

  /** Rewriting one entry changes the count of a room by exactly the
      difference of that entry's contributions. */
  lemma {:induction false} CountActiveUpdate(es: seq<Entry>, i: int, e: Entry, r: RoomId)
    requires 0 <= i < |es|
    ensures CountActive(es[i := e], r)
            == CountActive(es, r) - (if IsActiveIn(es[i], r) then 1 else 0) + (if IsActiveIn(e, r) then 1 else 0)
    decreases |es|
  {
    var n := |es|;
    var prefix := es[..n - 1];
    if i == n - 1 {
      assert es[i := e][..n - 1] == prefix;
    } else {
      assert es[i := e][..n - 1] == prefix[i := e];
      CountActiveUpdate(prefix, i, e, r);
    }
  }

  /** Clearing a room touches only entries that were active in it. */
  lemma {:induction false} CloseRoomShape(es: seq<Entry>, r: RoomId, date: Date)
    ensures |CloseRoom(es, r, date)| == |es|
    ensures forall i :: 0 <= i < |es| ==>
      CloseRoom(es, r, date)[i] == (if IsActiveIn(es[i], r) then Close(es[i], date, MovedOut) else es[i])
    decreases |es|
  {
    if es != [] {
      var prefix := es[..|es| - 1];
      CloseRoomShape(prefix, r, date);
    }
  }

  /** Clearing room `r` leaves it with no active entry and every other
      room's count as it was. */
  lemma {:induction false} CloseRoomCount(es: seq<Entry>, r: RoomId, date: Date, q: RoomId)
    ensures CountActive(CloseRoom(es, r, date), q) == if q == r then 0 else CountActive(es, q)
    decreases |es|
  {
    if es != [] {
      var n := |es|;
      var prefix := es[..n - 1];
      var last := es[n - 1];
      var closedLast := if IsActiveIn(last, r) then Close(last, date, MovedOut) else last;
      CloseRoomCount(prefix, r, date, q);
      CloseRoomShape(prefix, r, date);
      CountActiveAppend(CloseRoom(prefix, r, date), closedLast, q);
      assert (es[..n - 1] + [last]) == es;
      CountActiveAppend(prefix, last, q);
    }
  }

  /** Clearing a room empties it in the ledger, leaves every other room's
      count alone, and touches only entries that were active in it. */
  lemma CloseRoomEffect(es: seq<Entry>, r: RoomId, date: Date)
    ensures |CloseRoom(es, r, date)| == |es|
    ensures forall i :: 0 <= i < |es| ==>
      CloseRoom(es, r, date)[i] == (if IsActiveIn(es[i], r) then Close(es[i], date, MovedOut) else es[i])
    ensures CountActive(CloseRoom(es, r, date), r) == 0
    ensures forall q :: q != r ==> CountActive(CloseRoom(es, r, date), q) == CountActive(es, q)
  {
    CloseRoomShape(es, r, date);
    forall q | true
      ensures CountActive(CloseRoom(es, r, date), q) == if q == r then 0 else CountActive(es, q)
    {
      CloseRoomCount(es, r, date, q);
    }
  }

  /** Number of active entries in the whole ledger: the beds taken in the
      building. */
  function Headcount(es: seq<Entry>): (n: nat)
    ensures n <= |es|
    ensures n == 0 <==> forall i :: 0 <= i < |es| ==> es[i].status != Active
    decreases |es|
  {
    if es == [] then 0
    else
      var prefix := es[..|es| - 1];
      assert forall i :: 0 <= i < |prefix| ==> prefix[i] == es[i];
      Headcount(prefix) + (if es[|es| - 1].status == Active then 1 else 0)
  }

  lemma HeadcountAppend(es: seq<Entry>, e: Entry)
    ensures Headcount(es + [e]) == Headcount(es) + (if e.status == Active then 1 else 0)
  {
    assert (es + [e])[..|es|] == es;
  }

  /** Rewriting one entry changes the headcount by exactly the difference
      of that entry's contributions. */
  lemma {:induction false} HeadcountUpdate(es: seq<Entry>, i: int, e: Entry)
    requires 0 <= i < |es|
    ensures Headcount(es[i := e])
            == Headcount(es) - (if es[i].status == Active then 1 else 0) + (if e.status == Active then 1 else 0)
    decreases |es|
  {
    var n := |es|;
    var prefix := es[..n - 1];
    if i == n - 1 {
      assert es[i := e][..n - 1] == prefix;
    } else {
      assert es[i := e][..n - 1] == prefix[i := e];
      HeadcountUpdate(prefix, i, e);
    }
  }
}

=== FILE: payments.dfy ===
/** The charge handlers: creation with validation and the overlap check,
    partial payment (full confirmation or a split into paid prefix and
    unpaid remainder), the status/date update and deletion. */
module Payments {
  import opened Types
  import opened Billing
  import opened State

  /** The body of a charge-creation request; a JSON field may be absent. */
  datatype ChargeRequest = ChargeRequest(
    student: Option<StudentId>,
    monthFrom: Option<int>,
    monthTo: Option<int>,
    year: Option<int>,
    amount: Option<int>,
    paymentDate: Option<Date>,
    status: Option<ChargeStatus>)

  /** The answer of a partial payment. */
  datatype PartialOutcome =
    | FullyPaid
    | SplitOff(paid: int, monthsPaid: int, remainingDebt: int, monthsRemaining: int)

  function Abs(x: int): int {
    if x < 0 then -x else x
  }

  /** `month_to || month_from`: an absent or zero end month means a single
      month. */
  function EffectiveMonthTo(req: ChargeRequest): int
    requires req.monthFrom.Some?
  {
    if Truthy(req.monthTo) then req.monthTo.value else req.monthFrom.value
  }

  /** POST /payments: records a charge for a range of months. */
  function CreateCharge(d: Dorm, req: ChargeRequest): (r: Result<(Dorm, Charge)>)
    ensures !(Truthy(req.student) && Truthy(req.monthFrom) && Truthy(req.year) && Truthy(req.amount)) ==>
      r == Err(MissingChargeFields)
    ensures Truthy(req.student) && Truthy(req.monthFrom) && Truthy(req.year) && Truthy(req.amount)
            && !WellFormedRange(req.monthFrom.value, EffectiveMonthTo(req)) ==>
      r == Err(CheckMonths(req.monthFrom.value, EffectiveMonthTo(req)).value)
    ensures Truthy(req.student) && Truthy(req.monthFrom) && Truthy(req.year) && Truthy(req.amount)
            && WellFormedRange(req.monthFrom.value, EffectiveMonthTo(req))
            && Abs(req.amount.value - MonthCount(req.monthFrom.value, EffectiveMonthTo(req)) * MONTHLY_RATE) > AMOUNT_TOLERANCE ==>
      r == Err(AmountMismatch(MonthCount(req.monthFrom.value, EffectiveMonthTo(req)) * MONTHLY_RATE))
    ensures Truthy(req.student) && Truthy(req.monthFrom) && Truthy(req.year) && Truthy(req.amount)
            && WellFormedRange(req.monthFrom.value, EffectiveMonthTo(req))
            && Abs(req.amount.value - MonthCount(req.monthFrom.value, EffectiveMonthTo(req)) * MONTHLY_RATE) <= AMOUNT_TOLERANCE
            && req.student.value !in d.students ==>
      r == Err(StudentNotFound)
    // an existing charge of the account hit by the overlap query refuses the request, naming its period
    ensures Truthy(req.student) && Truthy(req.monthFrom) && Truthy(req.year) && r.Err? && r.error.PeriodOverlap? ==>
      exists i :: 0 <= i < |d.charges| && Conflicts(d.charges[i], req.student.value, req.year.value, req.monthFrom.value, EffectiveMonthTo(req))
                  && r.error == PeriodOverlap(d.charges[i].monthFrom, d.charges[i].monthTo, req.year.value)
    // and a request passing the earlier guards that the overlap query hits is refused as an overlap
    ensures Truthy(req.student) && Truthy(req.monthFrom) && Truthy(req.year) && Truthy(req.amount)
            && WellFormedRange(req.monthFrom.value, EffectiveMonthTo(req))
            && Abs(req.amount.value - MonthCount(req.monthFrom.value, EffectiveMonthTo(req)) * MONTHLY_RATE) <= AMOUNT_TOLERANCE
            && req.student.value in d.students
            && (exists i :: 0 <= i < |d.charges| &&
                  Conflicts(d.charges[i], req.student.value, req.year.value, req.monthFrom.value, EffectiveMonthTo(req))) ==>
      r.Err? && r.error.PeriodOverlap?
    ensures r.Ok? ==>
      var (d', c) := r.value;
      && Truthy(req.student) && Truthy(req.monthFrom) && Truthy(req.year) && Truthy(req.amount)
      && c.student == req.student.value && c.student in d.students
      && c.monthFrom == req.monthFrom.value && c.monthTo == EffectiveMonthTo(req) && c.year == req.year.value
      && WellFormedRange(c.monthFrom, c.monthTo)
      // the stored amount is the computed one, within tolerance of the submitted one
      && c.amount == MonthCount(c.monthFrom, c.monthTo) * MONTHLY_RATE
      && Abs(req.amount.value - c.amount) <= AMOUNT_TOLERANCE
      && c.status == req.status.GetOr(Unpaid) && c.paymentDate == req.paymentDate
      && c.id == d.nextChargeId
      && d'.charges == d.charges + [c] && d'.nextChargeId == d.nextChargeId + 1
      && d'.rooms == d.rooms && d'.entries == d.entries && d'.students == d.students
      && d'.nextRoomId == d.nextRoomId && d'.nextStudentId == d.nextStudentId
      // no charge of the same student and year is hit by the overlap query
      && forall i :: 0 <= i < |d.charges| ==> !Conflicts(d.charges[i], c.student, c.year, c.monthFrom, c.monthTo)
    // a complete, well-formed, correctly priced request of a known student
    // that overlaps nothing is recorded
    ensures Truthy(req.student) && Truthy(req.monthFrom) && Truthy(req.year) && Truthy(req.amount)
            && WellFormedRange(req.monthFrom.value, EffectiveMonthTo(req))
            && Abs(req.amount.value - MonthCount(req.monthFrom.value, EffectiveMonthTo(req)) * MONTHLY_RATE) <= AMOUNT_TOLERANCE
            && req.student.value in d.students
            && (forall i :: 0 <= i < |d.charges| ==>
                  !Conflicts(d.charges[i], req.student.value, req.year.value, req.monthFrom.value, EffectiveMonthTo(req))) ==>
      r.Ok?
  {
    if !(Truthy(req.student) && Truthy(req.monthFrom) && Truthy(req.year) && Truthy(req.amount)) then
      Err(MissingChargeFields)
    else
      var from := req.monthFrom.value;
      var to := EffectiveMonthTo(req);
      match CheckMonths(from, to)
      case Some(e) => Err(e)
      case None =>
        var expected := MonthCount(from, to) * MONTHLY_RATE;
        if Abs(req.amount.value - expected) > AMOUNT_TOLERANCE then Err(AmountMismatch(expected))
        else if req.student.value !in d.students then Err(StudentNotFound)
        else
          var c := Charge(d.nextChargeId, req.student.value, from, to, req.year.value, expected,
                          req.paymentDate, req.status.GetOr(Unpaid));
          var charges :- Admit(d.charges, c);
          Ok((d.(charges := charges, nextChargeId := d.nextChargeId + 1), c))
  }

  lemma CreateChargePreservesValid(d: Dorm, req: ChargeRequest)
    requires Valid(d)
    requires CreateCharge(d, req).Ok?
    ensures Valid(CreateCharge(d, req).value.0)
  {
    var c := CreateCharge(d, req).value.1;
    AdmitPreservesValid(d.charges, c);
  }

  /** Creation keeps every (student, year) free of overlapping periods:
      afterwards no month is billed twice to the same account. */
  lemma CreateChargeNeverDoubleBills(d: Dorm, req: ChargeRequest)
    requires ChargesValid(d.charges)
    requires CreateCharge(d, req).Ok?
    ensures var (d', c) := CreateCharge(d, req).value;
      forall i :: 0 <= i < |d.charges| && SameAccount(d.charges[i], c.student, c.year) ==>
        !Intersects(d.charges[i].monthFrom, d.charges[i].monthTo, c.monthFrom, c.monthTo)
  {
    var c := CreateCharge(d, req).value.1;
    AdmitRejectsExactlyIntersections(d.charges, c);
  }

  /** The first charge with identifier `id`, the row an UPDATE or DELETE
      by id touches. */
  function FindCharge(cs: seq<Charge>, id: ChargeId): (r: Option<nat>)
    ensures r.Some? ==> r.value < |cs| && cs[r.value].id == id
    ensures r.None? <==> forall i :: 0 <= i < |cs| ==> cs[i].id != id
    decreases |cs|
  {
    if cs == [] then None
    else if cs[0].id == id then Some(0)
    else
      match FindCharge(cs[1..], id)
      case None => None
      case Some(k) => Some(k + 1)
  }

  /** The first unpaid charge with identifier `id`. */
  function FindUnpaid(cs: seq<Charge>, id: ChargeId): (r: Option<nat>)
    ensures r.Some? ==> r.value < |cs| && cs[r.value].id == id && cs[r.value].status == Unpaid
    ensures r.None? <==> forall i :: 0 <= i < |cs| ==> !(cs[i].id == id && cs[i].status == Unpaid)
    decreases |cs|
  {
    if cs == [] then None
    else if cs[0].id == id && cs[0].status == Unpaid then Some(0)
    else
      match FindUnpaid(cs[1..], id)
      case None => None
      case Some(k) => Some(k + 1)
  }

  /** POST /payments/:id/partial: settles an unpaid charge in full, or pays
      whole months from its start and leaves the rest as a new unpaid
      charge. A split that would leave no month unpaid is refused (see the
      findings for the handler as written). */
  function PartialPayment(d: Dorm, id: ChargeId, paid: int, date: Option<Date>): (r: Result<(Dorm, PartialOutcome)>)
    ensures FindUnpaid(d.charges, id).None? ==> r == Err(UnpaidChargeNotFound)
    ensures FindUnpaid(d.charges, id).Some? && !(0 < paid <= d.charges[FindUnpaid(d.charges, id).value].amount) ==>
      r == Err(PaidAmountOutOfRange)
    ensures FindUnpaid(d.charges, id).Some? && 0 < paid < d.charges[FindUnpaid(d.charges, id).value].amount
            && paid < MONTHLY_RATE ==>
      r == Err(BelowMinimumPayment)
    ensures FindUnpaid(d.charges, id).Some? ==>
      var c := d.charges[FindUnpaid(d.charges, id).value];
      MONTHLY_RATE <= paid < c.amount && MonthsPaid(paid) >= MonthCount(c.monthFrom, c.monthTo) ==>
        r == Err(NoMonthsLeftToSplit)
    ensures r.Ok? ==> FindUnpaid(d.charges, id).Some?
    // the whole amount, or a split that leaves at least one month unpaid, is accepted
    ensures FindUnpaid(d.charges, id).Some? ==>
      var c := d.charges[FindUnpaid(d.charges, id).value];
      (paid == c.amount > 0 || (MONTHLY_RATE <= paid < c.amount && MonthsPaid(paid) < MonthCount(c.monthFrom, c.monthTo))) ==>
        r.Ok?
    ensures r.Ok? && FindUnpaid(d.charges, id).Some? ==>
      var i := FindUnpaid(d.charges, id).value;
      var c := d.charges[i];
      var (d', outcome) := r.value;
      && 0 < paid <= c.amount
      && d'.rooms == d.rooms && d'.entries == d.entries && d'.students == d.students
      // paying the whole amount only marks that one record paid on the date
      && (paid == c.amount <==> outcome.FullyPaid?)
      && (paid == c.amount ==> d'.charges == d.charges[i := c.(paymentDate := date, status := Paid)]
                               && d'.nextChargeId == d.nextChargeId)
      // otherwise whole months are paid and at least one month remains
      && (paid < c.amount ==>
            && 1 <= MonthsPaid(paid) < MonthCount(c.monthFrom, c.monthTo)
            && d'.charges == d.charges[i := Split(c, paid, date, d.nextChargeId).0]
                             + [Split(c, paid, date, d.nextChargeId).1]
            && d'.nextChargeId == d.nextChargeId + 1
            && outcome == SplitOff(paid, MonthsPaid(paid), c.amount - paid,
                                   MonthCount(c.monthFrom, c.monthTo) - MonthsPaid(paid)))
  {
    match FindUnpaid(d.charges, id)
    case None => Err(UnpaidChargeNotFound)
    case Some(i) =>
      var c := d.charges[i];
      if paid <= 0 || paid > c.amount then Err(PaidAmountOutOfRange)
      else if c.amount - paid < 1 then
        Ok((d.(charges := d.charges[i := c.(paymentDate := date, status := Paid)]), FullyPaid))
      else
        var months := MonthsPaid(paid);
        var count := MonthCount(c.monthFrom, c.monthTo);
        if months == 0 then Err(BelowMinimumPayment)
        else if months >= count then Err(NoMonthsLeftToSplit)
        else
          var (paidPart, rest) := Split(c, paid, date, d.nextChargeId);
          Ok((d.(charges := d.charges[i := paidPart] + [rest], nextChargeId := d.nextChargeId + 1),
              SplitOff(paid, months, c.amount - paid, count - months)))
  }

  /** A payment lowers the payer's debt by exactly the amount paid and
      leaves every other student's debt alone. */
  lemma PartialPaymentReducesDebt(d: Dorm, id: ChargeId, paid: int, date: Option<Date>, s: StudentId)
    requires PartialPayment(d, id, paid, date).Ok?
    ensures var c := d.charges[FindUnpaid(d.charges, id).value];
      var d' := PartialPayment(d, id, paid, date).value.0;
      Debt(d'.charges, s) == Debt(d.charges, s) - (if s == c.student then paid else 0)
  {
    var i := FindUnpaid(d.charges, id).value;
    var c := d.charges[i];
    if paid == c.amount {
      DebtUpdate(d.charges, i, c.(paymentDate := date, status := Paid), s);
    } else {
      var (p, rest) := Split(c, paid, date, d.nextChargeId);
      DebtUpdate(d.charges, i, p, s);
      DebtAppend(d.charges[i := p], rest, s);
    }
  }

  /** A payment never changes which months are billed to which account:
      the paid prefix and the remainder cover exactly the original range. */
  lemma PartialPaymentKeepsBilledMonths(d: Dorm, id: ChargeId, paid: int, date: Option<Date>, student: StudentId, year: int, m: int)
    requires PartialPayment(d, id, paid, date).Ok?
    ensures Billed(PartialPayment(d, id, paid, date).value.0.charges, student, year, m)
            <==> Billed(d.charges, student, year, m)
  {
    var i := FindUnpaid(d.charges, id).value;
    var c := d.charges[i];
    var cs' := PartialPayment(d, id, paid, date).value.0.charges;
    if paid == c.amount {
      if Billed(d.charges, student, year, m) {
        var j :| 0 <= j < |d.charges| && SameAccount(d.charges[j], student, year)
                 && InRange(d.charges[j].monthFrom, d.charges[j].monthTo, m);
        assert SameAccount(cs'[j], student, year) && InRange(cs'[j].monthFrom, cs'[j].monthTo, m);
      }
    } else {
      var (p, rest) := Split(c, paid, date, d.nextChargeId);
      SplitPartitions(c, paid, date, d.nextChargeId);
      assert cs'[i] == p && cs'[|d.charges|] == rest;
      if Billed(d.charges, student, year, m) {
        var j :| 0 <= j < |d.charges| && SameAccount(d.charges[j], student, year)
                 && InRange(d.charges[j].monthFrom, d.charges[j].monthTo, m);
        if j != i {
          assert cs'[j] == d.charges[j];
        } else if !InRange(p.monthFrom, p.monthTo, m) {
          assert InRange(rest.monthFrom, rest.monthTo, m);
        }
      }
      if Billed(cs', student, year, m) {
        var j :| 0 <= j < |cs'| && SameAccount(cs'[j], student, year) && InRange(cs'[j].monthFrom, cs'[j].monthTo, m);
        if j == i || j == |d.charges| {
          assert SameAccount(d.charges[i], student, year) && InRange(c.monthFrom, c.monthTo, m);
        } else {
          assert cs'[j] == d.charges[j];
        }
      }
    }
  }

  lemma PartialPaymentPreservesValid(d: Dorm, id: ChargeId, paid: int, date: Option<Date>)
    requires Valid(d)
    requires PartialPayment(d, id, paid, date).Ok?
    ensures Valid(PartialPayment(d, id, paid, date).value.0)
  {
    var i := FindUnpaid(d.charges, id).value;
    var c := d.charges[i];
    if paid == c.amount {
      ReplaceKeepsChargesValid(d.charges, i, c.(paymentDate := date, status := Paid));
    } else {
      SplitKeepsChargesValid(d.charges, i, paid, date, d.nextChargeId);
    }
  }

  /** PUT /payments/:id: overwrites the payment date and status of a
      charge, whatever its current status; nothing else changes. */
  function UpdateCharge(d: Dorm, id: ChargeId, date: Option<Date>, status: ChargeStatus): (r: Result<(Dorm, Charge)>)
    ensures r.Err? <==> forall i :: 0 <= i < |d.charges| ==> d.charges[i].id != id
    ensures r.Err? ==> r.error == ChargeNotFound
    ensures r.Ok? ==>
      var (d', c) := r.value;
      var i := FindCharge(d.charges, id).value;
      && FindCharge(d.charges, id).Some?
      && c == d.charges[i].(paymentDate := date, status := status)
      && d'.charges == d.charges[i := c]
      && d'.rooms == d.rooms && d'.entries == d.entries && d'.students == d.students
      && d'.nextChargeId == d.nextChargeId
  {
    match FindCharge(d.charges, id)
    case None => Err(ChargeNotFound)
    case Some(i) =>
      var c := d.charges[i].(paymentDate := date, status := status);
      Ok((d.(charges := d.charges[i := c]), c))
  }

  lemma UpdateChargePreservesValid(d: Dorm, id: ChargeId, date: Option<Date>, status: ChargeStatus)
    requires Valid(d)
    requires UpdateCharge(d, id, date, status).Ok?
    ensures Valid(UpdateCharge(d, id, date, status).value.0)
  {
    var i := FindCharge(d.charges, id).value;
    ReplaceKeepsChargesValid(d.charges, i, d.charges[i].(paymentDate := date, status := status));
  }

  /** DELETE /payments/:id: removes the charge unconditionally. */
  function DeleteCharge(d: Dorm, id: ChargeId): (r: Result<Dorm>)
    ensures r.Err? <==> forall i :: 0 <= i < |d.charges| ==> d.charges[i].id != id
    ensures r.Err? ==> r.error == ChargeNotFound
    ensures r.Ok? ==>
      && |r.value.charges| == |d.charges| - 1
      && multiset(r.value.charges) + multiset{d.charges[FindCharge(d.charges, id).value]} == multiset(d.charges)
      && r.value.rooms == d.rooms && r.value.entries == d.entries && r.value.students == d.students
      && r.value.nextChargeId == d.nextChargeId
    ensures r.Ok? && UniqueIds(d.charges) ==> forall j :: 0 <= j < |r.value.charges| ==> r.value.charges[j].id != id
  {
    match FindCharge(d.charges, id)
    case None => Err(ChargeNotFound)
    case Some(i) =>
      RemoveAt(d.charges, i);
      Ok(d.(charges := d.charges[..i] + d.charges[i + 1..]))
  }

  /** Removing the charge at position `i` takes exactly that one charge out
      and keeps the others in order. */
  lemma RemoveAt(cs: seq<Charge>, i: nat)
    requires i < |cs|
    ensures var rest := cs[..i] + cs[i + 1..];
      && |rest| == |cs| - 1
      && multiset(rest) + multiset{cs[i]} == multiset(cs)
      && forall j :: 0 <= j < |rest| ==> rest[j] == cs[if j < i then j else j + 1]
  {
    assert cs == cs[..i] + [cs[i]] + cs[i + 1..];
  }

  lemma DeleteChargePreservesValid(d: Dorm, id: ChargeId)
    requires Valid(d)
    requires DeleteCharge(d, id).Ok?
    ensures Valid(DeleteCharge(d, id).value)
  {
    var i := FindCharge(d.charges, id).value;
    var cs := d.charges;
    var cs' := DeleteCharge(d, id).value.charges;
    assert cs' == cs[..i] + cs[i + 1..];
    RemoveAt(cs, i);
  }
}

=== FILE: rooms.dfy ===
/** The room handlers: the available/full views, clearing a room,
    creation, update and deletion guarded by occupancy, and the
    pagination arithmetic of the listing. */
module Rooms {
  import opened Types
  import opened Ledger
  import opened State

  predicate HasFreeBed(r: Room) {
    r.occupiedBeds < r.totalBeds
  }

  /** The `status` filter of the room listing. */
  datatype StatusFilter = AnyStatus | AvailableOnly | FullOnly

  function ParseStatusFilter(status: string): (f: StatusFilter)
    ensures f == AvailableOnly <==> status == "available"
    ensures f == FullOnly <==> status == "full"
  {
    if status == "available" then AvailableOnly
    else if status == "full" then FullOnly
    else AnyStatus
  }

  /** GET /rooms (status filter) and GET /rooms/available. */
  function ListRooms(rooms: map<RoomId, Room>, filter: StatusFilter): (ks: set<RoomId>)
    ensures ks <= rooms.Keys
    ensures filter == AnyStatus ==> ks == rooms.Keys
    ensures filter == AvailableOnly ==> forall k :: k in ks <==> k in rooms && rooms[k].occupiedBeds < rooms[k].totalBeds
    ensures filter == FullOnly ==> forall k :: k in ks <==> k in rooms && rooms[k].occupiedBeds >= rooms[k].totalBeds
  {
    match filter
    case AnyStatus => rooms.Keys
    case AvailableOnly => set k | k in rooms && HasFreeBed(rooms[k])
    case FullOnly => set k | k in rooms && !HasFreeBed(rooms[k])
  }

  /** Every room is either available or full, never both; under the bounds
      invariant a full room is exactly one whose every bed is taken. */
  lemma AvailableAndFullPartition(rooms: map<RoomId, Room>)
    ensures ListRooms(rooms, AvailableOnly) + ListRooms(rooms, FullOnly) == rooms.Keys
    ensures ListRooms(rooms, AvailableOnly) !! ListRooms(rooms, FullOnly)
    ensures RoomBounds(rooms) ==>
      forall k :: k in ListRooms(rooms, FullOnly) <==> k in rooms && rooms[k].occupiedBeds == rooms[k].totalBeds
  {
  }

  /** POST /rooms/:id/clear: moves every active entry of the room out on
      `now` and resets its counter to zero. Answers the room number. */
  function ClearRoom(d: Dorm, k: RoomId, now: Date): (r: Result<(Dorm, string)>)
    ensures k !in d.rooms ==> r == Err(RoomNotFound)
    ensures k in d.rooms ==> r.Ok?
    ensures r.Ok? ==>
      var d' := r.value.0;
      && k in d.rooms && r.value.1 == d.rooms[k].number
      && d'.rooms == d.rooms[k := d.rooms[k].(occupiedBeds := 0)]
      && |d'.entries| == |d.entries|
      // every active entry of the room is moved out on `now`; nothing else changes
      && (forall i :: 0 <= i < |d.entries| && IsActiveIn(d.entries[i], k) ==>
            d'.entries[i] == d.entries[i].(status := MovedOut, dateOut := Some(now)))
      && (forall i :: 0 <= i < |d.entries| && !IsActiveIn(d.entries[i], k) ==> d'.entries[i] == d.entries[i])
      // which agrees with the room's counter being zero
      && CountActive(d'.entries, k) == 0
      && (forall q :: q != k ==> CountActive(d'.entries, q) == CountActive(d.entries, q))
      && d'.charges == d.charges && d'.students == d.students
      && d'.nextRoomId == d.nextRoomId && d'.nextStudentId == d.nextStudentId && d'.nextChargeId == d.nextChargeId
  {
    if k !in d.rooms then Err(RoomNotFound)
    else
      CloseRoomEffect(d.entries, k, now);
      Ok((d.(entries := CloseRoom(d.entries, k, now),
             rooms := d.rooms[k := d.rooms[k].(occupiedBeds := 0)]),
          d.rooms[k].number))
  }

  lemma ClearRoomPreservesValid(d: Dorm, k: RoomId, now: Date)
    requires Valid(d)
    requires ClearRoom(d, k, now).Ok?
    ensures Valid(ClearRoom(d, k, now).value.0)
  {
    var es := d.entries;
    var es' := ClearRoom(d, k, now).value.0.entries;
    assert forall i :: 0 <= i < |es| && es'[i].status == Active ==> es'[i] == es[i];
  }

  /** POST /rooms: adds a room with a number no other room has. The new
      room starts empty. Answers the new room's identifier. */
  function CreateRoom(d: Dorm, number: string, floor: int, totalBeds: int): (r: Result<(Dorm, RoomId)>)
    ensures (exists q :: q in d.rooms && d.rooms[q].number == number) ==> r == Err(RoomNumberTaken)
    ensures (forall q :: q in d.rooms ==> d.rooms[q].number != number) && totalBeds < 0 ==> r == Err(NegativeCapacity)
    ensures r.Ok? ==>
      var (d', id) := r.value;
      && id !in d.rooms
      && (forall q :: q in d.rooms ==> d.rooms[q].number != number)
      && 0 <= totalBeds
      && d'.rooms == d.rooms[id := Room(number, floor, totalBeds, 0)]
      // only "ahead of the new id": a serial sequence may leave gaps
      && d'.nextRoomId > id
      && d'.entries == d.entries && d'.charges == d.charges && d'.students == d.students
      && d'.nextStudentId == d.nextStudentId && d'.nextChargeId == d.nextChargeId
    // the primary key collides only when the serial lags behind the rooms
    ensures r == Err(DuplicateKey) ==> d.nextRoomId in d.rooms
    // a new number with a non-negative capacity is accepted while the serial is fresh
    ensures (forall q :: q in d.rooms ==> d.rooms[q].number != number) && 0 <= totalBeds
            && d.nextRoomId !in d.rooms ==>
      r.Ok?
  {
    if exists q :: q in d.rooms && d.rooms[q].number == number then Err(RoomNumberTaken)
    else if totalBeds < 0 then Err(NegativeCapacity)
    else
      var id := d.nextRoomId;
      if id in d.rooms then Err(DuplicateKey)
      else Ok((d.(rooms := d.rooms[id := Room(number, floor, totalBeds, 0)], nextRoomId := id + 1), id))
  }

  lemma CreateRoomPreservesValid(d: Dorm, number: string, floor: int, totalBeds: int)
    requires Valid(d)
    requires CreateRoom(d, number, floor, totalBeds).Ok?
    ensures Valid(CreateRoom(d, number, floor, totalBeds).value.0)
  {
    var id := CreateRoom(d, number, floor, totalBeds).value.1;
    assert forall i :: 0 <= i < |d.entries| ==> !IsActiveIn(d.entries[i], id);
  }

  /** PUT /rooms/:id: rewrites number, floor and capacity, never below the
      current occupancy and never onto another room's number; the counter
      is untouched. */
  function UpdateRoom(d: Dorm, k: RoomId, number: string, floor: int, totalBeds: int): (r: Result<(Dorm, Room)>)
    ensures k !in d.rooms ==> r == Err(RoomNotFound)
    ensures k in d.rooms && totalBeds < d.rooms[k].occupiedBeds ==>
      r == Err(CapacityBelowOccupancy(d.rooms[k].occupiedBeds))
    ensures k in d.rooms && totalBeds >= d.rooms[k].occupiedBeds
            && (exists q :: q in d.rooms && q != k && d.rooms[q].number == number) ==>
      r == Err(RoomNumberTaken)
    ensures r.Ok? ==>
      var (d', room) := r.value;
      && k in d.rooms
      && room == Room(number, floor, totalBeds, d.rooms[k].occupiedBeds)
      && d.rooms[k].occupiedBeds <= totalBeds
      && (forall q :: q in d.rooms && q != k ==> d.rooms[q].number != number)
      && d'.rooms == d.rooms[k := room]
      && d'.entries == d.entries && d'.charges == d.charges && d'.students == d.students
      && d'.nextRoomId == d.nextRoomId && d'.nextStudentId == d.nextStudentId && d'.nextChargeId == d.nextChargeId
    // an update passing all three guards is carried out
    ensures k in d.rooms && totalBeds >= d.rooms[k].occupiedBeds
            && (forall q :: q in d.rooms && q != k ==> d.rooms[q].number != number) ==>
      r.Ok?
  {
    if k !in d.rooms then Err(RoomNotFound)
    else if totalBeds < d.rooms[k].occupiedBeds then Err(CapacityBelowOccupancy(d.rooms[k].occupiedBeds))
    else if exists q :: q in d.rooms && q != k && d.rooms[q].number == number then Err(RoomNumberTaken)
    else
      var room := Room(number, floor, totalBeds, d.rooms[k].occupiedBeds);
      Ok((d.(rooms := d.rooms[k := room]), room))
  }

  lemma UpdateRoomPreservesValid(d: Dorm, k: RoomId, number: string, floor: int, totalBeds: int)
    requires Valid(d)
    requires UpdateRoom(d, k, number, floor, totalBeds).Ok?
    ensures Valid(UpdateRoom(d, k, number, floor, totalBeds).value.0)
  {
  }

  /** DELETE /rooms/:id: removes a room nobody lives in. */
  function DeleteRoom(d: Dorm, k: RoomId): (r: Result<Dorm>)
    ensures k !in d.rooms ==> r == Err(RoomNotFound)
    ensures k in d.rooms && d.rooms[k].occupiedBeds > 0 ==> r == Err(RoomOccupied)
    ensures k in d.rooms && d.rooms[k].occupiedBeds <= 0 ==> r.Ok?
    ensures r.Ok? ==>
      && k in d.rooms && d.rooms[k].occupiedBeds <= 0
      && r.value.rooms == d.rooms - {k}
      && r.value.entries == d.entries && r.value.charges == d.charges && r.value.students == d.students
      && r.value.nextRoomId == d.nextRoomId && r.value.nextStudentId == d.nextStudentId
      && r.value.nextChargeId == d.nextChargeId
  {
    if k !in d.rooms then Err(RoomNotFound)
    else if d.rooms[k].occupiedBeds > 0 then Err(RoomOccupied)
    else Ok(d.(rooms := d.rooms - {k}))
  }

  /** Under the invariant a deletable room holds no active entry, so the
      ledger never points at a deleted room. */
  lemma DeleteRoomPreservesValid(d: Dorm, k: RoomId)
    requires Valid(d)
    requires DeleteRoom(d, k).Ok?
    ensures Valid(DeleteRoom(d, k).value)
  {
    assert CountActive(d.entries, k) == 0;
  }

  /** The paging window of a listing. */
  datatype Window = Window(page: int, limit: int, offset: int, totalPages: int)

  /** `Math.ceil(total / limit)` for a positive limit. */
  function CeilDiv(total: nat, limit: int): (pages: nat)
    requires limit > 0
    ensures total == 0 ==> pages == 0
    ensures total > 0 ==> (pages - 1) * limit < total <= pages * limit
  {
    var q := (total + limit - 1) / limit;
    assert q * limit <= total + limit - 1 < (q + 1) * limit;
    q
  }

  /** The paging of the listings: `parseInt(page) || 1`,
      `parseInt(limit) || 50`, `offset = (page - 1) * limit`; PostgreSQL
      refuses a negative LIMIT or OFFSET. */
  function Paginate(page: Option<int>, limit: Option<int>, total: nat): (r: Result<Window>)
    ensures r.Ok? ==>
      && r.value.page == (if Truthy(page) then page.value else 1)
      && r.value.limit == (if Truthy(limit) then limit.value else 50)
      && r.value.limit > 0 && r.value.page >= 1
      && r.value.offset == (r.value.page - 1) * r.value.limit
      && r.value.totalPages * r.value.limit >= total
      && (total > 0 ==> (r.value.totalPages - 1) * r.value.limit < total)
      && (total == 0 ==> r.value.totalPages == 0)
    ensures r.Err? <==> (Truthy(limit) && limit.value < 0) || (Truthy(page) && page.value < 1)
    ensures r.Err? ==> r.error == NegativeWindow
    ensures !Truthy(page) && !Truthy(limit) ==> r == Ok(Window(1, 50, 0, CeilDiv(total, 50)))
  {
    var p := if Truthy(page) then page.value else 1;
    var l := if Truthy(limit) then limit.value else 50;
    if l < 0 || (p - 1) * l < 0 then Err(NegativeWindow)
    else Ok(Window(p, l, (p - 1) * l, CeilDiv(total, l)))
  }

  /** Every row of a listing lies on a page between 1 and `totalPages`,
      and that page's window holds it. */
  lemma {:induction false} EveryRowOnAPage(w: Window, total: nat, row: nat)
    requires w.limit > 0 && w.totalPages * w.limit >= total
    requires row < total
    ensures var p := row / w.limit + 1;
      1 <= p <= w.totalPages && (p - 1) * w.limit <= row < p * w.limit
  {
    var q := row / w.limit;
    assert q * w.limit <= row < (q + 1) * w.limit;
    assert q * w.limit < w.totalPages * w.limit;
    assert q < w.totalPages;
  }
}

=== FILE: state.dfy ===
/** The global invariant of the store, which every handler is proved to
    preserve: room bounds, the cached counters agreeing with the ledger,
    one active entry per student, fresh identifiers, and a valid charge
    ledger. */
module State {
  import opened Types
  import opened Ledger
  import opened Billing

  /** `0 <= occupied_beds <= total_beds` for every room. */
  predicate RoomBounds(rooms: map<RoomId, Room>) {
    forall k :: k in rooms ==> 0 <= rooms[k].occupiedBeds <= rooms[k].totalBeds
  }

  /** Every room's cached counter equals its number of active entries. */
  predicate OccupancyMatchesLedger(rooms: map<RoomId, Room>, es: seq<Entry>) {
    forall k :: k in rooms ==> rooms[k].occupiedBeds == CountActive(es, k)
  }

  /** Every active entry lives in an existing room. */
  predicate ActiveRoomsExist(rooms: map<RoomId, Room>, es: seq<Entry>) {
    forall i :: 0 <= i < |es| && es[i].status == Active ==> es[i].room in rooms
  }

  /** The serial sequences are ahead of every identifier in use. */
  predicate FreshIds(d: Dorm) {
    && (forall k :: k in d.rooms ==> k < d.nextRoomId)
    && (forall k :: k in d.students ==> k < d.nextStudentId)
    && (forall i :: 0 <= i < |d.charges| ==> d.charges[i].id < d.nextChargeId)
  }

  predicate LedgerValid(rooms: map<RoomId, Room>, es: seq<Entry>) {
    && RoomBounds(rooms)
    && OccupancyMatchesLedger(rooms, es)
    && ActiveRoomsExist(rooms, es)
    && OneActivePerStudent(es)
  }

  /** No two rooms share a room number. */
  predicate UniqueRoomNumbers(rooms: map<RoomId, Room>) {
    forall a, b :: a in rooms && b in rooms && a != b ==> rooms[a].number != rooms[b].number
  }

  /** No two students share a (non-empty) passport. */
  predicate UniquePassports(students: map<StudentId, Student>) {
    forall a, b :: a in students && b in students && a != b && TruthyText(students[a].passport) ==>
      students[a].passport != students[b].passport
  }

  predicate Valid(d: Dorm) {
    && LedgerValid(d.rooms, d.entries)
    && UniqueRoomNumbers(d.rooms)
    && UniquePassports(d.students)
    && ChargesValid(d.charges)
    && FreshIds(d)
  }

  /** The empty store. */
  function Init(): (d: Dorm)
    ensures Valid(d)
  {
    Dorm(map[], 1, map[], 1, [], [], 1)
  }

  /** `UPDATE rooms SET occupied_beds = occupied_beds + delta WHERE id = k`:
      a missing room is left alone. */
  function AdjustOccupancy(rooms: map<RoomId, Room>, k: RoomId, delta: int): (out: map<RoomId, Room>)
    ensures out.Keys == rooms.Keys
    ensures k in rooms ==> out[k] == rooms[k].(occupiedBeds := rooms[k].occupiedBeds + delta)
    ensures forall q :: q in rooms && q != k ==> out[q] == rooms[q]
  {
    if k in rooms then rooms[k := rooms[k].(occupiedBeds := rooms[k].occupiedBeds + delta)] else rooms
  }
}

=== FILE: students.dfy ===
/** The student handlers: required fields and passport uniqueness on
    create/update, the housed guard on delete, and the derived views
    (available students, debt totals, roommates, the sort whitelist). */
module Students {
  import opened Types
  import opened Ledger
  import opened Billing
  import opened State
  import opened Accommodation

  /** `!surname || !name || !course || !faculty` is false. */
  predicate HasRequiredFields(f: Student) {
    f.surname != "" && f.name != "" && f.course != 0 && f.faculty != ""
  }

  /** Some student other than `self` holds passport `p`. */
  predicate PassportHeldByOther(students: map<StudentId, Student>, p: string, self: Option<StudentId>) {
    exists q :: q in students && Some(q) != self && students[q].passport == Some(p)
  }

  /** POST /students: the form must carry the required fields, and a
      non-empty passport must be new. Answers the new identifier. */
  function CreateStudent(d: Dorm, f: Student): (r: Result<(Dorm, StudentId)>)
    ensures !HasRequiredFields(f) ==> r == Err(MissingStudentFields)
    ensures HasRequiredFields(f) && TruthyText(f.passport) && PassportHeldByOther(d.students, f.passport.value, None) ==>
      r == Err(PassportTaken)
    ensures r.Ok? ==>
      var (d', id) := r.value;
      && HasRequiredFields(f)
      && id !in d.students
      && (TruthyText(f.passport) ==> forall q :: q in d.students ==> d.students[q].passport != f.passport)
      && d'.students == d.students[id := f]
      && d'.rooms == d.rooms && d'.entries == d.entries && d'.charges == d.charges
      && d'.nextStudentId > id && d'.nextRoomId == d.nextRoomId && d'.nextChargeId == d.nextChargeId
    // the primary key collides only when the serial lags behind the students
    ensures r == Err(DuplicateKey) ==> d.nextStudentId in d.students
    // a complete form with a new passport is accepted while the serial is fresh
    ensures HasRequiredFields(f) && !(TruthyText(f.passport) && PassportHeldByOther(d.students, f.passport.value, None))
            && d.nextStudentId !in d.students ==>
      r.Ok?
  {
    if !HasRequiredFields(f) then Err(MissingStudentFields)
    else if TruthyText(f.passport) && PassportHeldByOther(d.students, f.passport.value, None) then Err(PassportTaken)
    else
      var id := d.nextStudentId;
      if id in d.students then Err(DuplicateKey)
      else Ok((d.(students := d.students[id := f], nextStudentId := id + 1), id))
  }

  lemma CreateStudentPreservesValid(d: Dorm, f: Student)
    requires Valid(d)
    requires CreateStudent(d, f).Ok?
    ensures Valid(CreateStudent(d, f).value.0)
  {
  }

  /** PUT /students/:id: a non-empty passport held by another student is
      refused first; then the whole record is overwritten. */
  function UpdateStudent(d: Dorm, id: StudentId, f: Student): (r: Result<Dorm>)
    ensures TruthyText(f.passport) && PassportHeldByOther(d.students, f.passport.value, Some(id)) ==>
      r == Err(PassportTaken)
    ensures id !in d.students && !(TruthyText(f.passport) && PassportHeldByOther(d.students, f.passport.value, Some(id))) ==>
      r == Err(StudentNotFound)
    ensures r.Ok? ==>
      && id in d.students
      && (TruthyText(f.passport) ==> forall q :: q in d.students && q != id ==> d.students[q].passport != f.passport)
      && r.value.students == d.students[id := f]
      && r.value.rooms == d.rooms && r.value.entries == d.entries && r.value.charges == d.charges
      && r.value.nextRoomId == d.nextRoomId && r.value.nextStudentId == d.nextStudentId
      && r.value.nextChargeId == d.nextChargeId
    // an existing student whose new passport no other student holds is updated
    ensures id in d.students && !(TruthyText(f.passport) && PassportHeldByOther(d.students, f.passport.value, Some(id))) ==>
      r.Ok?
  {
    if TruthyText(f.passport) && PassportHeldByOther(d.students, f.passport.value, Some(id)) then Err(PassportTaken)
    else if id !in d.students then Err(StudentNotFound)
    else Ok(d.(students := d.students[id := f]))
  }

  lemma UpdateStudentPreservesValid(d: Dorm, id: StudentId, f: Student)
    requires Valid(d)
    requires UpdateStudent(d, id, f).Ok?
    ensures Valid(UpdateStudent(d, id, f).value)
  {
  }

  /** DELETE /students/:id: a housed student cannot be deleted. */
  function DeleteStudent(d: Dorm, id: StudentId): (r: Result<Dorm>)
    ensures HasActive(d.entries, id) ==> r == Err(StudentHoused)
    ensures !HasActive(d.entries, id) && id !in d.students ==> r == Err(StudentNotFound)
    ensures r.Ok? ==>
      && id in d.students
      && (forall i :: 0 <= i < |d.entries| ==> !IsActiveFor(d.entries[i], id))
      && r.value.students == d.students - {id}
      && r.value.rooms == d.rooms && r.value.entries == d.entries && r.value.charges == d.charges
      && r.value.nextRoomId == d.nextRoomId && r.value.nextStudentId == d.nextStudentId
      && r.value.nextChargeId == d.nextChargeId
    // a registered student with no active entry is removed
    ensures !HasActive(d.entries, id) && id in d.students ==> r.Ok?
  {
    if HasActive(d.entries, id) then Err(StudentHoused)
    else if id !in d.students then Err(StudentNotFound)
    else Ok(d.(students := d.students - {id}))
  }

  lemma DeleteStudentPreservesValid(d: Dorm, id: StudentId)
    requires Valid(d)
    requires DeleteStudent(d, id).Ok?
    ensures Valid(DeleteStudent(d, id).value)
  {
  }

  /** GET /students/available: the students without an active entry. */
  function AvailableStudents(d: Dorm): (ks: set<StudentId>)
    ensures ks <= d.students.Keys
    // exactly the registered students the delete handler does not find housed
    ensures forall s :: s in ks <==> s in d.students && DeleteStudent(d, s) != Err(StudentHoused)
  {
    set s | s in d.students && !HasActive(d.entries, s)
  }

  /** Under the invariant, the available students are exactly those the
      move-in guard does not find housed. */
  lemma AvailableStudentsAreUnhoused(d: Dorm, s: StudentId)
    requires Valid(d)
    requires s in d.students
    ensures s in AvailableStudents(d) <==> HousedRoomNumber(d, s).None?
  {
    if s !in AvailableStudents(d) {
      var i :| 0 <= i < |d.entries| && IsActiveFor(d.entries[i], s);
      assert d.entries[i].room in d.rooms;
    }
  }

  /** The `total_debt` column: the unpaid amounts of one student added up
      in one pass over the charges. */
  method TotalDebt(cs: seq<Charge>, s: StudentId) returns (total: int)
    ensures total == Debt(cs, s)
    ensures (forall i :: 0 <= i < |cs| ==> cs[i].amount >= 0) ==> total >= 0
  {
    total := 0;
    var k := 0;
    while k < |cs|
      invariant 0 <= k <= |cs|
      invariant total == Debt(cs[..k], s)
    {
      assert cs[..k + 1] == cs[..k] + [cs[k]];
      DebtAppend(cs[..k], cs[k], s);
      if OwedBy(cs[k], s) {
        total := total + cs[k].amount;
      }
      k := k + 1;
    }
    assert cs[..k] == cs;
  }

  /** Every room that appears in the ledger. */
  function LedgerRooms(es: seq<Entry>): set<RoomId> {
    set i | 0 <= i < |es| :: es[i].room
  }

  /** `t` has an active entry in the room of one of `s`'s active entries. */
  predicate SharesRoom(es: seq<Entry>, s: StudentId, t: StudentId) {
    exists i, j :: 0 <= i < |es| && 0 <= j < |es| && IsActiveFor(es[i], s) && IsActiveFor(es[j], t) && es[j].room == es[i].room
  }

  /** GET /students/:id/roommates: the other existing students active in
      the room of the student's active entry. The room comes from a scalar
      subquery, which fails when the student has two active entries. */
  function Roommates(d: Dorm, s: StudentId): (r: Result<set<StudentId>>)
    ensures r.Err? <==> exists i, j :: 0 <= i < j < |d.entries| && IsActiveFor(d.entries[i], s) && IsActiveFor(d.entries[j], s)
    ensures r.Err? ==> r.error == AmbiguousActiveRoom
    ensures r.Ok? ==> forall t :: t in r.value <==> t in d.students && t != s && SharesRoom(d.entries, s, t)
    ensures r.Ok? && !HasActive(d.entries, s) ==> r.value == {}
  {
    var es := d.entries;
    match FirstActiveFor(es, s, LedgerRooms(es))
    case None =>
      assert forall i :: 0 <= i < |es| ==> es[i].room in LedgerRooms(es);
      Ok({})
    case Some(i) =>
      var rest := FirstActiveFor(es[i + 1..], s, LedgerRooms(es));
      if rest.Some? then
        assert IsActiveFor(es[i + 1 + rest.value], s);
        Err(AmbiguousActiveRoom)
      else
        forall j | 0 <= j < |es| && IsActiveFor(es[j], s)
          ensures j == i
        {
          assert es[j].room in LedgerRooms(es);
          if j < i {
            FirstActiveIsFirst(es, s, LedgerRooms(es), j);
          }
        }
        Ok(set t | t in d.students && t != s && exists j :: 0 <= j < |es| && IsActiveFor(es[j], t) && es[j].room == es[i].room)
  }

  /** `FirstActiveFor` returns the first qualifying entry. */
  lemma {:induction false} FirstActiveIsFirst(es: seq<Entry>, s: StudentId, rooms: set<RoomId>, j: nat)
    requires j < |es| && IsActiveFor(es[j], s) && es[j].room in rooms
    ensures FirstActiveFor(es, s, rooms).Some? && FirstActiveFor(es, s, rooms).value <= j
    decreases j
  {
    if j > 0 && !(IsActiveFor(es[0], s) && es[0].room in rooms) {
      assert es[1..][j - 1] == es[j];
      FirstActiveIsFirst(es[1..], s, rooms, j - 1);
    }
  }

  /** Under the invariant the roommate relation is symmetric. */
  lemma RoommatesSymmetric(d: Dorm, s: StudentId, t: StudentId)
    requires OneActivePerStudent(d.entries)
    requires Roommates(d, s).Ok? && t in Roommates(d, s).value && s in d.students
    ensures Roommates(d, t).Ok? && s in Roommates(d, t).value
  {
    var i, j :| 0 <= i < |d.entries| && 0 <= j < |d.entries| && IsActiveFor(d.entries[i], s)
                && IsActiveFor(d.entries[j], t) && d.entries[j].room == d.entries[i].room;
    assert SharesRoom(d.entries, t, s);
  }

  /** The columns the student listing may be sorted by. */
  datatype SortField = ById | BySurname | ByName | ByCourse | ByFaculty | ByPhone | ByPassport

  function ColumnName(f: SortField): string {
    match f
    case ById => "id"
    case BySurname => "surname"
    case ByName => "name"
    case ByCourse => "course"
    case ByFaculty => "faculty"
    case ByPhone => "phone"
    case ByPassport => "passport"
  }

  /** The whitelist of sortable column names. */
  const AllowedSortFields: seq<string> := ["id", "surname", "name", "course", "faculty", "phone", "passport"]

  /** `sortBy || 'id'`, then the whitelist check. */
  function ParseSortField(sortBy: Option<string>): (r: Result<SortField>)
    ensures r.Ok? <==> !TruthyText(sortBy) || sortBy.value in AllowedSortFields
    ensures r.Err? ==> r.error == InvalidSortField
    ensures r.Ok? ==> ColumnName(r.value) == (if TruthyText(sortBy) then sortBy.value else "id")
  {
    var name := if TruthyText(sortBy) then sortBy.value else "id";
    if name == "id" then Ok(ById)
    else if name == "surname" then Ok(BySurname)
    else if name == "name" then Ok(ByName)
    else if name == "course" then Ok(ByCourse)
    else if name == "faculty" then Ok(ByFaculty)
    else if name == "phone" then Ok(ByPhone)
    else if name == "passport" then Ok(ByPassport)
    else Err(InvalidSortField)
  }

  /** Every sort field is accepted under its own column name. */
  lemma SortFieldRoundTrip(f: SortField)
    ensures ParseSortField(Some(ColumnName(f))) == Ok(f)
  {
  }
}

=== FILE: types.dfy ===
/** Shared vocabulary of the dormitory model: identifiers, the records the
    route handlers read and write, the outcome type and the error taxonomy. */
module Types {

  /** Instants (date_in, date_out, payment_date) are opaque: the model only
      stores them and never inspects them. "Default to now" is an input. */
  type Date = int

  type RoomId = int
  type StudentId = int
  type ChargeId = int

  /** The accommodation ledger is append-only and never deleted from, so an
      entry is identified by its position in the ledger. */
  type EntryId = int

  datatype Option<T> = None | Some(value: T) {
    /** The value, or `default` when absent (JavaScript's `x || default`
        for a value that can only be missing, never falsy). */
    function GetOr(default: T): T {
      match this
      case Some(v) => v
      case None => default
    }
  }

  /** JavaScript truthiness of an optional integer field: `!x` holds for a
      missing field and for 0. */
  predicate Truthy(x: Option<int>) {
    x.Some? && x.value != 0
  }

  /** JavaScript truthiness of an optional string field: `!s` holds for a
      missing field and for the empty string. */
  predicate TruthyText(s: Option<string>) {
    s.Some? && s.value != ""
  }

  datatype EntryStatus = Active | MovedOut | Transferred

  datatype ChargeStatus = Unpaid | Paid

  /** A row of `rooms`. `occupiedBeds` is a cached counter that the handlers
      keep in step with the ledger. */
  datatype Room = Room(number: string, floor: int, totalBeds: int, occupiedBeds: int)

  /** A row of `students`. Absent text fields are the empty string and an
      absent course is 0; only their truthiness is ever consulted. */
  datatype Student = Student(
    surname: string,
    name: string,
    patronymic: string,
    course: int,
    faculty: string,
    phone: string,
    passport: Option<string>)

  /** A row of `accommodation`. */
  datatype Entry = Entry(
    student: StudentId,
    room: RoomId,
    dateIn: Date,
    dateOut: Option<Date>,
    status: EntryStatus)

  /** A row of `payments`: a charge for the months `[monthFrom, monthTo]` of
      `year`, with `amount` in hundredths of a hryvnia. */
  datatype Charge = Charge(
    id: ChargeId,
    student: StudentId,
    monthFrom: int,
    monthTo: int,
    year: int,
    amount: int,
    paymentDate: Option<Date>,
    status: ChargeStatus)

  /** The whole store the handlers share. The `next…` fields stand for the
      serial sequences that hand out fresh identifiers. */
  datatype Dorm = Dorm(
    rooms: map<RoomId, Room>,
    nextRoomId: RoomId,
    students: map<StudentId, Student>,
    nextStudentId: StudentId,
    entries: seq<Entry>,
    charges: seq<Charge>,
    nextChargeId: ChargeId)

  /** The error responses of the handlers, without HTTP status codes or
      localized messages. */
  datatype Error =
    | StudentAlreadyHoused(roomNumber: string)
    | RoomNotFound
    | RoomFull(occupied: int, total: int)
    | MonthsReversed
    | MonthOutOfRange
    | PeriodOverlap(monthFrom: int, monthTo: int, year: int)
    | ActiveEntryNotFound
    | EntryNotFound
    | AlreadyMovedOut
    | SameRoom
    | MissingChargeFields
    | AmountMismatch(expected: int)
    | StudentNotFound
    | UnpaidChargeNotFound
    | PaidAmountOutOfRange
    | BelowMinimumPayment
    | NoMonthsLeftToSplit
    | ChargeNotFound
    | RoomNumberTaken
    | CapacityBelowOccupancy(occupied: int)
    | RoomOccupied
    // raised by the database: the `beds_check` constraint
    | NegativeCapacity
    | MissingStudentFields
    | PassportTaken
    | StudentHoused
    | InvalidSortField
    // raised by the database: a negative LIMIT or OFFSET, a scalar
    // subquery returning two rows, a primary-key collision
    | NegativeWindow
    | AmbiguousActiveRoom
    | DuplicateKey

  /** Outcome of a handler; usable with `:-`. A failed handler commits
      nothing, so an error carries no state. */
  datatype Result<T> = Ok(value: T) | Err(error: Error) {
    predicate IsFailure() {
      Err?
    }

    function PropagateFailure<U>(): Result<U>
      requires Err?
    {
      Err(error)
    }

    function Extract(): T
      requires Ok?
    {
      value
    }
  }
}
